=== FILE: README.md ===
# Ball shooter and pinch-to-stretch, modelled in Dafny

This project models two parts of a WebXR demo written in TypeScript on
three.js.

The first part is the ball shooter. Two hand controllers spawn balls on
select-start and throw them on select-end. The balls fly under gravity and
hit five collider boxes. The boxes fall at half gravity, take an impulse from
every hit and bounce on the floor. The live balls sit in a pool of at most
20, and the oldest ball is evicted first. Each frame, a ball that falls
below `y = -10` is removed.

The second part is the pinch-to-stretch feature:

- `PinchDetector` reports a pinch when the index tip and the thumb tip are
  closer than 2 cm.
- `PinchableObject` is stretched along the axes of a drag and then returns
  to its initial scale.
- `PinchInteractionManager` is the pinch state machine, fed by a tracked
  hand or by shift + left mouse button.

Every piece of state is an immutable datatype, and every handler is a pure
function from the old state to the new one. Numbers are `real`. Distances
are compared on squares. Where the source takes a square root
(`distanceTo`), the model takes the root as an input `d` that satisfies
`Vector.IsDistance`. The collision direction the source normalises is
normalised by the engine's `normalize`, taken as a function parameter. The
drag direction of a pinch (pinch-interaction-manager.ts:117) is used raw
instead: `extend` only asks which of its components are non-zero, and any
non-zero multiple gives the same result
(`PinchableObject.ExtendDirectionScaleFree`). A rotation is a `Mat3`.
Raycast results and the eased scale of an elastic return are inputs.

Modules, one per file:

- `Wrappers`: `Option`.
- `Vector`: `Vec3` and `Mat3` arithmetic.
- `Physics`:
  - the constants;
  - one ball's Euler step;
  - the collision test and response;
  - the collider floor rule.
- `BallPool`: the bounded FIFO pool and the out-of-bounds filter.
- `BallShooter`:
  - the shooter state and the select handlers;
  - `update`, as a function and as the source's loop;
  - the frame lemmas.
- `PinchDetector`, `PinchableObject` and `PinchInteractionManager`.

Throughout the tables, `ball-shooter.ts` is
`src/components/ball-shooter/ball-shooter.ts`. The three pinch files are in
`src/components/pinch-interaction/`.

### Behaviour of the code worth knowing

- **Held balls fall.** A ball gets `isShot = true` when it is created
  (ball-shooter.ts:125). The `isShot` test at line 174 therefore always
  passes, and the model folds it away. A held ball falls, in its
  controller's coordinates, from the first frame on.
- **Eviction ignores holding.** At the cap, the oldest ball is shifted out
  whatever its state (lines 128-132). A held ball can therefore be evicted
  while its controller still refers to it. The release that follows changes
  nothing in the pool (`BallShooter.EvictionDropsHeldBall`).
- **No guard for a zero collision direction.** `normalize` of the zero
  vector gives the zero vector. The collider then gains nothing, and the
  ball velocity is only scaled by 0.7 (`Physics.HandleCollision`).
- **Semi-implicit Euler.** The velocity is updated before the position
  (lines 176-181). One frame after a throw, a ball has dropped by
  `9.8 dt^2`, not `4.9 dt^2` (`BallShooter.ReleasedBallFirstFrame`).
- **Floor bounce.** The bounce negates the vertical velocity after this
  frame's half gravity, not the velocity from before the frame
  (lines 209-219).
- **Release position.** A ball is released at the controller's `position`
  (line 156), which is its position in its parent's coordinates.
- **Listeners.** A new `selectend` listener is added on every press
  (line 140).
- **Grabbing during a return.** A press on an object that is still
  springing back does not stop the return (pinch-interaction-manager.ts:62-77).
  The next frames keep moving it along the return while it stays selected
  (`PinchInteractionManager.GrabDuringReturnKeepsReturning`).

## Model

| member | source | states |
|---|---|---|
| Physics.Integrate | src/components/ball-shooter/ball-shooter.ts:176-181 | Gravity lowers only `v.y`, by `9.8 dt`. The position then moves by the already updated velocity times `dt`. The ball keeps its identity. |
| Physics.CollidesIffCloserThanRadii | src/components/ball-shooter/ball-shooter.ts:227-233 | The squared-distance test decides exactly as `distance < 0.05 + 0.15`. A centre distance of exactly 0.2 is not a hit. |
| Physics.HandleCollision | src/components/ball-shooter/ball-shooter.ts:235-246 | The response as intended. The ball and collider positions do not change. The collider velocity gains `2n`. With a zero direction, the ball velocity is only scaled by 0.7. |
| Physics.CollisionDampsSpeed | src/components/ball-shooter/ball-shooter.ts:244-245 | For a unit direction, the ball's squared speed becomes 0.49 of what it was. Its component along `n` is reversed and scaled by 0.7. |
| Physics.HandleCollisionAsWritten | src/components/ball-shooter/ball-shooter.ts:240-245 | The response as the source writes it. It gives the collider the same impulse as the intended response. |
| Physics.AsWrittenReversesSevenfold | src/components/ball-shooter/ball-shooter.ts:241-245 | For any unit direction, the response as written reverses the ball's normal component and scales it by 4.9, not 0.7. The squared speed becomes `0.49 (|v|^2 + 48 (v·n)^2)`. |
| Physics.AsWrittenFasterThanIntended | src/components/ball-shooter/ball-shooter.ts:241-245 | Whenever the ball moves along the direction at all, the response as written leaves it strictly faster than the intended one. |
| Physics.AsWrittenDivergesNextFrame | src/components/ball-shooter/ball-shooter.ts:176-181 | For a unit direction, a ball moving along it at all, and a non-zero frame time, the two responses put the hit ball in different places one frame later. |
| Physics.AsWrittenGainsSpeed | src/components/ball-shooter/ball-shooter.ts:241-245 | Take a ball moving at `(1,0,0)` that hits along the unit direction `(1,0,0)`. As written, its velocity along the direction comes back as -4.9, with squared speed 24.01. The intended damping gives 0.49. |
| Physics.CollideAll | src/components/ball-shooter/ball-shooter.ts:184-191 | The collider loop for one ball, with the intended response. The ball's position and the colliders' positions do not change. A collider out of range is untouched. With nothing in range, the ball is untouched. |
| Physics.CollideAllImpulses | src/components/ball-shooter/ball-shooter.ts:184-191 | Each collider in range of the ball gains exactly `2n`, once, where `n` is the normalised direction from it to the ball. |
| Physics.StepBall | src/components/ball-shooter/ball-shooter.ts:174-191 | A ball's new position is its own Euler step, whatever it hits. The colliders keep their number and positions. |
| Physics.FreeFlight | src/components/ball-shooter/ball-shooter.ts:176-191 | With no collider in range, a step is pure flight. `v.y` loses `9.8 dt`, `v.x` and `v.z` stay, the position advances by `v dt`, and the colliders do not change. |
| Physics.StepCollider | src/components/ball-shooter/ball-shooter.ts:207-222 | One collider frame: half gravity, then motion. Below 0.15, the collider is clamped to exactly 0.15, `v.y` becomes minus half of itself, and `v.x` and `v.z` are scaled by 0.9. Otherwise there is plain motion. Either way the collider ends at or above 0.15. |
| Physics.RestingStep | src/components/ball-shooter/ball-shooter.ts:217-222 | A collider on the floor whose vertical speed is below one frame of half gravity is clamped again. It stays resting and keeps 0.9 of its horizontal velocity. |
| Physics.Decay | src/components/ball-shooter/ball-shooter.ts:220-221 | Repeated friction keeps the sign of a horizontal velocity and never moves it away from zero. After at least one frame, a non-zero velocity is strictly smaller in size than it started. |
| Physics.DecayShrinksEachFrame | src/components/ball-shooter/ball-shooter.ts:220-221 | Every further frame of friction moves a non-zero horizontal velocity strictly closer to zero. |
| Physics.DecayIsPower | src/components/ball-shooter/ball-shooter.ts:220-221 | After `n` clamped frames, the horizontal velocity is `0.9^n` times the original. |
| Physics.RestingColliderSettles | src/components/ball-shooter/ball-shooter.ts:209-222 | A resting collider stays on the floor for any number of frames. Its horizontal velocity decays geometrically towards zero and never reverses. |
| BallPool.Insert | src/components/ball-shooter/ball-shooter.ts:127-137 | The new ball goes last. Below the cap of 20, the counter goes up by one. At the cap, the oldest ball is dropped and the counter stays. The pool invariant (counter = length ≤ 20) is kept. |
| BallPool.PoolKeepsNewest | src/components/ball-shooter/ball-shooter.ts:127-137 | After any sequence of insertions, the pool holds exactly the 20 most recently inserted balls, in insertion order, and the counter equals the length. |
| BallPool.FirstOfTwentyOneEvicted | src/components/ball-shooter/ball-shooter.ts:127-137 | Inserting 21 balls into an empty pool evicts only the first and keeps the other 20 in order. |
| BallPool.KeepInBounds | src/components/ball-shooter/ball-shooter.ts:193-199 | The survivors of a frame are exactly the balls at or above `y = -10`. |
| BallPool.SurvivorIndices | src/components/ball-shooter/ball-shooter.ts:193-199 | Each survivor comes from a strictly increasing list of original positions, and these are exactly the in-bounds ones. The splice-and-`i--` removal therefore skips no ball and keeps the order. |
| BallShooter.Init | src/components/ball-shooter/ball-shooter.ts:91-109 | After construction the pool is empty and both controllers hold nothing. There are five colliders at rest at their placements, all above the floor. |
| BallShooter.OnSelectStart | src/components/ball-shooter/ball-shooter.ts:111-141 | A new ball is created at offset `(0,0,-0.1)` and is held by the controller. It is appended to the pool, evicting the oldest ball at the cap. The well-formedness of the state (pool invariant, distinct ball identities) is kept. |
| BallShooter.OnSelectEnd | src/components/ball-shooter/ball-shooter.ts:143-167 | Only the held ball changes: it moves to the controller position with the rotated launch velocity. The controller then holds nothing. If nothing is held, nothing changes. |
| BallShooter.PressThenRelease | src/components/ball-shooter/ball-shooter.ts:111-167 | A press then a release on one controller throws the ball just created. It is the newest ball in the pool, at the release position with the launch velocity. A repeated release changes nothing. |
| BallShooter.LaunchWithIdentity | src/components/ball-shooter/ball-shooter.ts:151-153 | Held with the identity rotation, a ball is thrown at `(0,0,-5)`. |
| BallShooter.LaunchSpeed | src/components/ball-shooter/ball-shooter.ts:151-153 | For any rotation, the launch speed is 5. |
| BallShooter.EvictionDropsHeldBall | src/components/ball-shooter/ball-shooter.ts:128-132 | At the cap, a ball held by another controller is evicted while that controller still refers to it. Its later release leaves the pool as it is. |
| BallShooter.Step | src/components/ball-shooter/ball-shooter.ts:169-225 | `update` as one function. It keeps well-formedness. Every surviving ball is at or above `-10`. Every collider is at or above the floor. The counter drops by the number of removals. |
| BallShooter.Advance | src/components/ball-shooter/ball-shooter.ts:171-191 | The ball loop before removals, ball by ball in pool order, each ball hitting the colliders as earlier balls left them. The ball and collider counts, every ball's identity and every collider's position are kept. |
| BallShooter.AdvancedPositions | src/components/ball-shooter/ball-shooter.ts:171-191 | After the ball loop, each ball is at the position of its own Euler step. Earlier balls and hits do not change where it ends up. |
| BallShooter.UpdateRemovesExactlyFallen | src/components/ball-shooter/ball-shooter.ts:193-199 | `update` removes exactly the balls whose own Euler step takes them below `-10`. The rest keep their order, identities and stepped positions. |
| BallShooter.ResolveCollisions | src/components/ball-shooter/ball-shooter.ts:184-191 | The collider loop over one ball, run in place in collider order with the intended response, computes the same as `Physics.CollideAll`. |
| BallShooter.ColliderIteration | src/components/ball-shooter/ball-shooter.ts:184-191 | One pass of that loop, a hit or a miss on collider `j`, extends the loop's result by exactly that collider and leaves the later colliders untouched. |
| BallShooter.BallIteration | src/components/ball-shooter/ball-shooter.ts:172-199 | One pass of the ball loop: a splice plus `i--`, or a write-back, then `i++`. It extends the survivors and the colliders by exactly one original ball. |
| BallShooter.VisitedIsAdvance | src/components/ball-shooter/ball-shooter.ts:171-201 | The loop's survivors and colliders after `k` balls agree with advancing the first `k` balls and then filtering. |
| BallShooter.UpdateOneBall | src/components/ball-shooter/ball-shooter.ts:174-191 | The loop body for one ball, an Euler step and then the collider loop, computes exactly `Physics.StepBall`. |
| BallShooter.UpdateBalls | src/components/ball-shooter/ball-shooter.ts:171-201 | The in-place ball loop with splice and `i--` leaves the balls in bounds and the colliders hit, in order. The counter drops by the number removed. |
| BallShooter.UpdateColliders | src/components/ball-shooter/ball-shooter.ts:204-224 | The collider loop applies the one-collider rule to every collider. |
| BallShooter.Update | src/components/ball-shooter/ball-shooter.ts:169-225 | The whole in-place `update`, with the intended collision response, computes exactly `BallShooter.Step`. |
| BallShooter.ReleasedBallFirstFrame | src/components/ball-shooter/ball-shooter.ts:176-181 | A ball thrown at `(0,0,-5)` from `at` is at `at + (0, -9.8 dt^2, -5 dt)` one frame later, whatever it hits. |
| PinchDetector.DetectPinch | src/components/pinch-interaction/pinch-detector.ts:7-15 | There is no pinch without both the index tip and the thumb tip. Touching tips always pinch. |
| PinchDetector.PinchIffCloserThanThreshold | src/components/pinch-interaction/pinch-detector.ts:5-14 | With both joints present, a pinch is reported exactly when the tip distance is below 0.02, strictly. |
| PinchDetector.GetPinchMidpoint | src/components/pinch-interaction/pinch-detector.ts:17-24 | There is no midpoint exactly when a joint is missing. Otherwise the midpoint is the average of the tips and is equally far from both. |
| PinchDetector.PinchSymmetric | src/components/pinch-interaction/pinch-detector.ts:7-24 | Swapping the two joints changes neither the verdict nor the midpoint. |
| PinchableObject.Create | src/components/pinch-interaction/pinchable-object.ts:3-12 | A new object has unit scale, which is also its initial scale. It is not returning, and its progress is 0. |
| PinchableObject.Extend | src/components/pinch-interaction/pinchable-object.ts:14-18 | Only the scale changes. With a factor of at least 1, no non-negative axis becomes smaller than its initial size. |
| PinchableObject.ExtendPerAxis | src/components/pinch-interaction/pinchable-object.ts:15-17 | Each axis is its initial size times the factor if the direction moves along it, and its initial size otherwise. |
| PinchableObject.ExtendIgnoresCurrentScale | src/components/pinch-interaction/pinchable-object.ts:15-17 | The result does not depend on the current scale, and repeating a stretch changes nothing. |
| PinchableObject.ExtendZeroRestores | src/components/pinch-interaction/pinchable-object.ts:15-17 | A zero direction restores the initial scale, whatever the factor. |
| PinchableObject.ExtendDirectionScaleFree | src/components/pinch-interaction/pinchable-object.ts:14-18 | Any non-zero multiple of the direction gives the same result, so normalising the drag direction does not matter. |
| PinchableObject.StartElasticReturn | src/components/pinch-interaction/pinchable-object.ts:20-23 | The object starts returning with progress 0. Its scale and highlight are kept. |
| PinchableObject.UpdateElasticReturn | src/components/pinch-interaction/pinchable-object.ts:25-42 | An object that is not returning is unchanged and reports false. A returning object advances its progress by `dt / 1.0`. Reaching 1 snaps it to its initial scale, ends the return and reports true. Otherwise it takes the eased scale and reports false. |
| PinchableObject.FinishedReturnIsIdle | src/components/pinch-interaction/pinchable-object.ts:26-34 | The call after the one that reports true reports false and changes nothing. |
| PinchableObject.ReturnCompletes | src/components/pinch-interaction/pinchable-object.ts:25-34 | Once the frame times of a started return add up to what is left of the duration, however they vary from frame to frame, the return is over and the object is at its initial scale, whatever the easing produced. |
| PinchableObject.UpdateAppearance | src/components/pinch-interaction/pinchable-object.ts:44-53 | The object is highlighted (emissive `0x553311`) exactly when it is pinched. Scale and return state do not change. |
| PinchInteractionManager.Create | src/components/pinch-interaction/pinch-interaction-manager.ts:12-16 | A new manager has no objects, no pinch and no selection, and it satisfies the invariant. |
| PinchInteractionManager.AddPinchableObject | src/components/pinch-interaction/pinch-interaction-manager.ts:33-36 | The object is appended and the pinch state does not change. The invariant is kept. |
| PinchInteractionManager.ExtensionFactor | src/components/pinch-interaction/pinch-interaction-manager.ts:115-116 | The factor is at least 1. It is exactly 1 only for a zero drag. |
| PinchInteractionManager.FactorGrowsWithDistance | src/components/pinch-interaction/pinch-interaction-manager.ts:115-116 | One drag stretches more than another exactly when it is longer. |
| PinchInteractionManager.HandlePinchStart | src/components/pinch-interaction/pinch-interaction-manager.ts:99-110 | A pinch starts at the given position even on a raycast miss. Only a hit selects and highlights an object. The hit object changes only its highlight: its scale, initial scale and return state stay. No other object changes, and the invariant is kept. |
| PinchInteractionManager.HandleOngoingPinch | src/components/pinch-interaction/pinch-interaction-manager.ts:112-120 | Without a selection, nothing changes. Otherwise only the selected object's scale changes, and a drag of zero length restores its initial scale. |
| PinchInteractionManager.OngoingPinchStretches | src/components/pinch-interaction/pinch-interaction-manager.ts:115-119 | The selected object is stretched by `1 + 2 dist` exactly on the axes along which the drag moved. |
| PinchInteractionManager.HandlePinchEnd | src/components/pinch-interaction/pinch-interaction-manager.ts:122-129 | Afterwards there is no pinch and no selection. The previously selected object loses its highlight and starts returning from its current scale towards its unchanged initial scale. Nothing else about it changes, and no other object changes. |
| PinchInteractionManager.UpdateVR | src/components/pinch-interaction/pinch-interaction-manager.ts:45-60 | Without a midpoint, nothing changes. Otherwise the midpoint becomes the current position, and then: a pinch while idle starts one; a pinch during a pinch with a selection continues it; a release during a pinch ends it; any other case changes only the current position. |
| PinchInteractionManager.OnMouseDown | src/components/pinch-interaction/pinch-interaction-manager.ts:62-77 | Only shift + button 0 on an object starts a pinch. That selects and highlights the object and puts the start and current positions at the hit point. Anything else changes nothing. |
| PinchInteractionManager.OnMouseMove | src/components/pinch-interaction/pinch-interaction-manager.ts:79-91 | Only during a pinch with a selection and a hit does the move update the current position and continue the pinch. |
| PinchInteractionManager.OnMouseUp | src/components/pinch-interaction/pinch-interaction-manager.ts:93-97 | A pinch ends only if one is in progress. Afterwards there is never a pinch or a selection. |
| PinchInteractionManager.Update | src/components/pinch-interaction/pinch-interaction-manager.ts:38-43 | Each object takes one frame of its elastic return. The hand and the pinch state are untouched, and the invariant is kept. |
| PinchInteractionManager.UpdateSparesIdleObjects | src/components/pinch-interaction/pinch-interaction-manager.ts:131-135 | A frame leaves every object that is not returning as it is. |
| PinchInteractionManager.GrabDuringReturnKeepsReturning | src/components/pinch-interaction/pinch-interaction-manager.ts:62-77 | A shift-press on an object that is still returning selects and highlights it but does not stop the return. On the next frame that leaves the return unfinished, the object is still returning and takes the eased scale. |
| PinchInteractionManager.MouseGestureReleasesObject | src/components/pinch-interaction/pinch-interaction-manager.ts:62-97 | A shift-press on an object and then a release leave the manager idle. The object is unhighlighted and starts returning. No other object changes. |

## Findings

| source | as written | input that shows it | evidently intended | confidence | as-written member | corrected member |
|---|---|---|---|---|---|---|
| src/components/ball-shooter/ball-shooter.ts:241-245 | `direction.multiplyScalar(2)` scales `direction` in place. `reflect(direction)` then reflects about `2n`, giving `0.7 (v - 8 (v·n) n)`. | Ball velocity `(1,0,0)` with unit direction `n = (1,0,0)`: the ball leaves at `(-4.9,0,0)`, about 7 times faster. | Reflect about the unit `n` and keep 0.7 of the speed, `0.7 (v - 2 (v·n) n)`. The collider still gains `2n`. | medium, not executed | Physics.HandleCollisionAsWritten, Physics.AsWrittenGainsSpeed, Physics.AsWrittenFasterThanIntended | Physics.HandleCollision, Physics.CollisionDampsSpeed |

The rest of the model (`Physics.CollideAll`, `BallShooter.Step`,
`BallShooter.Update`) uses the corrected response. Within one call of
`update`, the colliders come out the same either way: both responses give a
hit collider `2n` and leave the ball's position alone, so only the
velocities of the balls that were hit differ from the code as written.
From the next frame on, a ball that was hit is somewhere else than in the
code (`Physics.AsWrittenDivergesNextFrame`), so its later hits, the impulses
it gives, and whether it falls out all follow the intended response.

## Left out

- Physics.CollideAll: uses the intended collision response, so `BallShooter.Step`, `BallShooter.Update` and `BallShooter.ResolveCollisions` do not promise the ball velocity the code as written produces after a hit (see Findings). Within one call of `update`, the collider velocities and all positions are as the code computes them.
- BallShooter.Step: across frames, the path of a ball that was hit follows the intended response, not the code's, so later collisions, collider velocities and removals can differ from the code's (`Physics.AsWrittenDivergesNextFrame`).
- BallShooter.Update: follows the loops of `update`, but each hit uses the intended response rather than the one the code writes (see `Physics.CollideAll` above).
- PinchInteractionManager.DragDirection: the drag direction is not normalised, unlike pinch-interaction-manager.ts:117. A non-zero drag and its normalisation are non-zero multiples of each other, so `extend` gives the same scale (`PinchableObject.ExtendDirectionScaleFree`). The engine normalises a zero drag to zero, which is what the model uses.
- Scene construction and rendering are not modelled. This covers the room, the floor, the controller rays and grips, the geometries and materials, and `scene.add` / `scene.remove` and parenting. None of them affect the state the model follows.
- Event-listener registration is not modelled, nor the pile-up of `selectend` listeners. Each release event is one call of `BallShooter.OnSelectEnd`. A repeated release is a no-op (`BallShooter.PressThenRelease`).
- `Math.random()` placement of the colliders is not modelled. `BallShooter.Init` takes the five placements as input and only requires that they be in the ranges the source can produce.
- `normalize`, `distanceTo` and `extractRotation` / `applyMatrix4` come from the rendering engine. The step takes `normalize` as a parameter. The per-hit lemmas assume a unit direction. Distances are inputs tied to squared distances by `Vector.IsDistance`. A rotation is a `Mat3`.
- The release copies the controller's quaternion to the ball (ball-shooter.ts:157). Orientation plays no part in the physics, so it is not modelled.
- Coordinate frames are not modelled. A held ball's position is in its controller's frame, and the model treats positions as plain numbers.
- IEEE floating-point rounding is not modelled. All arithmetic is on `real`.
- The guards `if (collider.userData.velocity)` (ball-shooter.ts:207) and `collider.userData.velocity ||` (line 240) are left out. Every collider gets a velocity when it is created (line 103), so both guards always pass.
- The elastic easing curve (pinchable-object.ts:37-39) is not modelled. It is `Math.pow`, `Math.sin` and `lerpVectors` in floating point. `PinchableObject.UpdateElasticReturn` takes the eased scale as an input, and the model says nothing about its value.
- Mouse-to-screen coordinate mapping and raycasting are not modelled. The hits are inputs. A hit against the object list is required to name a listed object.
- `updateVR` is never called, because its call in `update` is commented out (pinch-interaction-manager.ts:40). `PinchInteractionManager.UpdateVR` models it on its own, and `PinchInteractionManager.Update` ignores the hand.
- Material properties other than the emissive colour and intensity are not modelled. `PinchableObject.Create` takes the initial emissive values as input.

=== FILE: ball_pool.dfy ===
/** The ball pool of the ball shooter: the `balls` array and the `ballCount`
    counter, capped at `maxBalls`, kept in insertion order
    (src/components/ball-shooter/ball-shooter.ts). */
module BallPool {
  import opened Physics

  const MaxBalls: nat := 20

  datatype Pool = Pool(balls: seq<Ball>, count: int)

  /** The counter agrees with the array and the cap holds. */
  predicate PoolInvariant(p: Pool) {
    |p.balls| == p.count && p.count <= MaxBalls
  }

  /** The insertion in `onSelectStart`: at the cap, `shift` drops the oldest
      ball and the counter stays; below it, the counter goes up. Either way
      the new ball goes last. */
  function Insert(p: Pool, b: Ball): (r: Pool)
    ensures PoolInvariant(p) ==> PoolInvariant(r)
    ensures |r.balls| > 0 && r.balls[|r.balls| - 1] == b
    ensures p.count < MaxBalls ==> r.balls == p.balls + [b] && r.count == p.count + 1
    ensures p.count >= MaxBalls && |p.balls| > 0 ==> r.balls == p.balls[1..] + [b] && r.count == p.count
  {
    if p.count >= MaxBalls then
      Pool((if |p.balls| > 0 then p.balls[1..] else p.balls) + [b], p.count)
    else
      Pool(p.balls + [b], p.count + 1)
  }

  /** Insert `bs` one after the other, first to last. */
  function InsertAll(p: Pool, bs: seq<Ball>): Pool
    decreases |bs|
  {
    if |bs| == 0 then p else Insert(InsertAll(p, bs[..|bs| - 1]), bs[|bs| - 1])
  }

  /** The last `n` elements of `s`, or all of it when it is shorter. */
  function Newest<T>(s: seq<T>, n: nat): (r: seq<T>)
    ensures |r| == if |s| <= n then |s| else n
  {
    if |s| <= n then s else s[|s| - n..]
  }

  /** FIFO eviction: whatever the insertions, the pool holds exactly the
      `MaxBalls` most recently inserted balls (all of them while there are
      fewer), oldest first, and the counter stays equal to its length. */
  lemma {:induction false} PoolKeepsNewest(p: Pool, bs: seq<Ball>)
    requires PoolInvariant(p)
    ensures InsertAll(p, bs).balls == Newest(p.balls + bs, MaxBalls)
    ensures PoolInvariant(InsertAll(p, bs))
  {
    if |bs| > 0 {
      var front, x := bs[..|bs| - 1], bs[|bs| - 1];
      PoolKeepsNewest(p, front);
      var q := InsertAll(p, front);
      var s' := p.balls + front;
      var s := p.balls + bs;
      assert s == s' + [x];
      if q.count < MaxBalls {
        assert |s'| < MaxBalls;
        assert q.balls == s';
      } else {
        assert |s'| >= MaxBalls;
        assert q.balls[1..] + [x] == s[|s| - MaxBalls..];
      }
    }
  }

  /** Inserting `MaxBalls + 1` balls into an empty pool evicts exactly the
      first and keeps the rest in order. */
  lemma FirstOfTwentyOneEvicted(bs: seq<Ball>)
    requires |bs| == MaxBalls + 1
    ensures InsertAll(Pool([], 0), bs).balls == bs[1..]
    ensures InsertAll(Pool([], 0), bs).count == MaxBalls
  {
    PoolKeepsNewest(Pool([], 0), bs);
    assert [] + bs == bs;
  }

  /** A ball survives the frame unless its height is below the lower bound. */
  predicate InBounds(b: Ball) {
    b.pos.y >= OutOfBoundsY
  }

  /** The balls left after the removals of one frame, in their original order. */
  function KeepInBounds(bs: seq<Ball>): (r: seq<Ball>)
    ensures |r| <= |bs|
    ensures forall b :: b in r ==> b in bs && InBounds(b)
    ensures forall b :: b in bs && InBounds(b) ==> b in r
    decreases |bs|
  {
    if |bs| == 0 then []
    else
      var last := bs[|bs| - 1];
      assert bs == bs[..|bs| - 1] + [last];
      KeepInBounds(bs[..|bs| - 1]) + (if InBounds(last) then [last] else [])
  }

  /** Where each survivor came from: an increasing list of the positions of
      exactly the in-bounds balls, so nothing is skipped, nothing in bounds
      is dropped, and the survivors keep their relative order. */
  function SurvivorIndices(bs: seq<Ball>): (idx: seq<nat>)
    ensures |idx| == |KeepInBounds(bs)|
    ensures forall k :: 0 <= k < |idx| ==> idx[k] < |bs| && KeepInBounds(bs)[k] == bs[idx[k]]
    ensures forall k, l :: 0 <= k < l < |idx| ==> idx[k] < idx[l]
    ensures forall i :: 0 <= i < |bs| ==> (i in idx <==> InBounds(bs[i]))
    decreases |bs|
  {
    if |bs| == 0 then []
    else
      var rest := SurvivorIndices(bs[..|bs| - 1]);
      SurvivorIndicesStep(bs, rest);
      rest + (if InBounds(bs[|bs| - 1]) then [|bs| - 1] else [])
  }

  /** The inductive step of `SurvivorIndices`: extending the front's indices
      by the last position when the last ball stays. */
  lemma SurvivorIndicesStep(bs: seq<Ball>, rest: seq<nat>)
    requires |bs| > 0
    requires |rest| == |KeepInBounds(bs[..|bs| - 1])|
    requires forall k :: 0 <= k < |rest| ==> rest[k] < |bs| - 1 && KeepInBounds(bs[..|bs| - 1])[k] == bs[..|bs| - 1][rest[k]]
    requires forall k, l :: 0 <= k < l < |rest| ==> rest[k] < rest[l]
    requires forall i :: 0 <= i < |bs| - 1 ==> (i in rest <==> InBounds(bs[..|bs| - 1][i]))
    ensures var idx := rest + (if InBounds(bs[|bs| - 1]) then [|bs| - 1] else []);
            && |idx| == |KeepInBounds(bs)|
            && (forall k :: 0 <= k < |idx| ==> idx[k] < |bs| && KeepInBounds(bs)[k] == bs[idx[k]])
            && (forall k, l :: 0 <= k < l < |idx| ==> idx[k] < idx[l])
            && (forall i :: 0 <= i < |bs| ==> (i in idx <==> InBounds(bs[i])))
  {
    var n := |bs| - 1;
    var front, last := bs[..n], bs[n];
    var kf := KeepInBounds(front);
    var tail := if InBounds(last) then [last] else [];
    var idx := rest + (if InBounds(last) then [n] else []);
    assert KeepInBounds(bs) == kf + tail;
    assert n !in rest;
    forall k | 0 <= k < |idx|
      ensures idx[k] < |bs| && KeepInBounds(bs)[k] == bs[idx[k]]
    {
      if k < |rest| {
        assert idx[k] == rest[k];
        assert front[rest[k]] == bs[rest[k]];
      }
    }
    forall i | 0 <= i < |bs|
      ensures i in idx <==> InBounds(bs[i])
    {
      if i < n {
        assert front[i] == bs[i];
        assert i in idx <==> i in rest;
      }
    }
  }

  /** Ball ids are pairwise different. */
  predicate DistinctIds(bs: seq<Ball>) {
    forall i, j :: 0 <= i < j < |bs| ==> bs[i].id != bs[j].id
  }

  lemma KeepInBoundsDistinct(bs: seq<Ball>)
    requires DistinctIds(bs)
    ensures DistinctIds(KeepInBounds(bs))
  {
    var r := KeepInBounds(bs);
    var idx := SurvivorIndices(bs);
    forall i, j | 0 <= i < j < |r|
      ensures r[i].id != r[j].id
    {
      assert r[i] == bs[idx[i]] && r[j] == bs[idx[j]];
      assert idx[i] < idx[j];
    }
  }
}

=== FILE: ball_shooter.dfy ===
/** The ball shooter (src/components/ball-shooter/ball-shooter.ts): the
    controllers' select-start / select-end handlers and the per-frame
    `update`, over one explicit state value. */
module BallShooter {
  import opened Wrappers
  import opened Vector
  import opened Physics
  import opened BallPool

  /** Where a new ball is placed, relative to the controller that spawned it. */
  const HoldOffset: Vec3 := Vec3(0.0, 0.0, -0.1)
  /** Launch velocity in controller coordinates: 5 units/s straight ahead. */
  const LaunchLocal: Vec3 := Vec3(0.0, 0.0, -5.0)
  const ColliderCount: nat := 5
  const ControllerCount: nat := 2

  /** `pool` is `balls`/`ballCount`; `held[c]` is controller `c`'s
      `userData.ball`, by ball id; `nextId` hands out mesh identities. */
  datatype Shooter = Shooter(pool: Pool, colliders: seq<Collider>, held: seq<Option<nat>>, nextId: nat)

  /** The pool invariant plus: every ball has its own identity, issued before. */
  predicate Wf(s: Shooter) {
    && PoolInvariant(s.pool)
    && DistinctIds(s.pool.balls)
    && forall i :: 0 <= i < |s.pool.balls| ==> s.pool.balls[i].id < s.nextId
  }

  /** A placement `addColliders` can produce from `Math.random()`. */
  predicate ValidPlacement(p: Vec3) {
    && -2.0 <= p.x < 2.0
    && 1.5 <= p.y < 3.5
    && -4.0 < p.z <= -2.0
  }

  lemma PlacementsAboveFloor(placements: seq<Vec3>)
    requires forall j :: 0 <= j < |placements| ==> ValidPlacement(placements[j])
    ensures forall j :: 0 <= j < |placements| ==> placements[j].y >= FloorY
  {
    forall j | 0 <= j < |placements| ensures placements[j].y >= FloorY {
      assert ValidPlacement(placements[j]);
    }
  }

  /** The state after the constructor: five colliders at rest at the given
      random placements, an empty pool, and two controllers holding nothing. */
  function Init(placements: seq<Vec3>): (s: Shooter)
    requires |placements| == ColliderCount
    requires forall j :: 0 <= j < |placements| ==> ValidPlacement(placements[j])
    ensures Wf(s)
    ensures s.pool.balls == [] && s.pool.count == 0
    ensures |s.held| == ControllerCount && forall c :: 0 <= c < |s.held| ==> s.held[c].None?
    ensures |s.colliders| == ColliderCount
    ensures forall j :: 0 <= j < |s.colliders| ==>
              s.colliders[j].pos == placements[j] && s.colliders[j].vel == Zero && s.colliders[j].pos.y >= FloorY
  {
    var cs := seq(|placements|, j requires 0 <= j < |placements| => Collider(placements[j], Zero));
    assert forall j :: 0 <= j < |cs| ==> cs[j].pos == placements[j];
    PlacementsAboveFloor(placements);
    Shooter(Pool([], 0), cs, [None, None], 0)
  }

  /** A freshly created ball, not yet released: at the hold offset, at rest. */
  function NewBall(id: nat): Ball {
    Ball(id, HoldOffset, Zero)
  }

  /** `onSelectStart(controller c)`: create a ball, attach it to `c`, and
      insert it into the pool, evicting the oldest ball at the cap — even one
      that another controller still holds. */
  function OnSelectStart(s: Shooter, c: nat): (r: Shooter)
    requires c < |s.held|
    ensures Wf(s) ==> Wf(r)
    ensures r.held == s.held[c := Some(s.nextId)]
    ensures r.nextId == s.nextId + 1
    ensures r.colliders == s.colliders
    ensures |r.pool.balls| > 0 && r.pool.balls[|r.pool.balls| - 1] == NewBall(s.nextId)
    ensures s.pool.count < MaxBalls ==>
              r.pool.balls == s.pool.balls + [NewBall(s.nextId)] && r.pool.count == s.pool.count + 1
    ensures Wf(s) && s.pool.count >= MaxBalls ==>
              r.pool.balls == s.pool.balls[1..] + [NewBall(s.nextId)] && r.pool.count == s.pool.count
  {
    var r := Shooter(Insert(s.pool, NewBall(s.nextId)), s.colliders, s.held[c := Some(s.nextId)], s.nextId + 1);
    assert Wf(s) ==> Wf(r) by {
      if Wf(s) {
        var bs := r.pool.balls;
        assert forall b :: b in bs ==> b in s.pool.balls || b == NewBall(s.nextId);
        forall i | 0 <= i < |bs| ensures bs[i].id < r.nextId {
          assert bs[i] in bs;
        }
        forall i, j | 0 <= i < j < |bs| ensures bs[i].id != bs[j].id {
          if j == |bs| - 1 {
            assert bs[i] in s.pool.balls;
          } else if s.pool.count >= MaxBalls {
            assert bs[i] == s.pool.balls[i + 1] && bs[j] == s.pool.balls[j + 1];
          } else {
            assert bs[i] == s.pool.balls[i] && bs[j] == s.pool.balls[j];
          }
        }
      }
    }
    r
  }

  /** The velocity a release gives: the launch vector turned by the
      controller's world rotation. */
  function LaunchVelocity(rot: Mat3): Vec3 {
    Apply(rot, LaunchLocal)
  }

  /** `onSelectEnd(controller c)`: if `c` holds a ball, that ball is placed at
      the controller's position `at` (its `position`, not its world position)
      and given the launch velocity for rotation `rot`; `c` then holds
      nothing. A held ball that has already left the pool is not put back. */
  function OnSelectEnd(s: Shooter, c: nat, at: Vec3, rot: Mat3): (r: Shooter)
    requires c < |s.held|
    ensures r.held == s.held[c := None]
    ensures r.pool.count == s.pool.count && r.colliders == s.colliders && r.nextId == s.nextId
    ensures |r.pool.balls| == |s.pool.balls|
    ensures forall i :: 0 <= i < |s.pool.balls| ==> r.pool.balls[i].id == s.pool.balls[i].id
    ensures forall i :: 0 <= i < |s.pool.balls| && s.held[c] != Some(s.pool.balls[i].id) ==>
              r.pool.balls[i] == s.pool.balls[i]
    ensures forall i :: 0 <= i < |s.pool.balls| && s.held[c] == Some(s.pool.balls[i].id) ==>
              r.pool.balls[i].pos == at && r.pool.balls[i].vel == LaunchVelocity(rot)
    ensures s.held[c].None? ==> r == s
    ensures Wf(s) ==> Wf(r)
  {
    match s.held[c]
    case None => s
    case Some(id) =>
      var bs := s.pool.balls;
      var released := seq(|bs|, i requires 0 <= i < |bs| =>
                          if bs[i].id == id then bs[i].(pos := at, vel := LaunchVelocity(rot)) else bs[i]);
      s.(pool := s.pool.(balls := released), held := s.held[c := None])
  }

  /** A press followed by a release on the same controller throws the ball
      just created: it is the newest in the pool, at `at` with the launch
      velocity, the controller holds nothing again, and a second release
      (one more accumulated listener firing) changes nothing. */
  lemma PressThenRelease(s: Shooter, c: nat, at: Vec3, rot: Mat3)
    requires Wf(s) && c < |s.held|
    ensures var r := OnSelectEnd(OnSelectStart(s, c), c, at, rot);
            && |r.pool.balls| > 0
            && r.pool.balls[|r.pool.balls| - 1] == Ball(s.nextId, at, LaunchVelocity(rot))
            && r.held == s.held[c := None]
            && r.pool.count == Insert(s.pool, NewBall(s.nextId)).count
            && OnSelectEnd(r, c, at, rot) == r
  {
    var p := OnSelectStart(s, c);
    var bs := p.pool.balls;
    var last := |bs| - 1;
    forall i | 0 <= i < last ensures bs[i].id != s.nextId {
      assert bs[i].id != bs[last].id;
    }
  }

  lemma LaunchComponents(rot: Mat3)
    ensures LaunchVelocity(rot) == Scale(-5.0, ZColumn(rot))
  {
    var v := LaunchVelocity(rot);
    assert v.x == rot.row0.z * -5.0;
    assert v.y == rot.row1.z * -5.0;
    assert v.z == rot.row2.z * -5.0;
  }

  /** Held straight (identity rotation), a ball is thrown at (0, 0, -5). */
  lemma LaunchWithIdentity()
    ensures LaunchVelocity(Identity) == Vec3(0.0, 0.0, -5.0)
  {
    LaunchComponents(Identity);
  }

  /** Whatever the rotation, the launch speed is 5 (25 on squares). */
  lemma LaunchSpeed(rot: Mat3)
    requires IsUnit(ZColumn(rot))
    ensures NormSq(LaunchVelocity(rot)) == 25.0
  {
    LaunchComponents(rot);
    ScaleNormSq(-5.0, ZColumn(rot));
  }

  /** The ball loop of `update` before removals, ball by ball in pool order;
      hits on colliders accumulate from one ball to the next. */
  function Advance(bs: seq<Ball>, cs: seq<Collider>, dt: real, norm: Vec3 -> Vec3): (r: (seq<Ball>, seq<Collider>))
    ensures |r.0| == |bs| && |r.1| == |cs|
    ensures forall i :: 0 <= i < |bs| ==> r.0[i].id == bs[i].id
    ensures forall j :: 0 <= j < |cs| ==> r.1[j].pos == cs[j].pos
    decreases |bs|
  {
    if |bs| == 0 then ([], cs)
    else
      var (front, cs1) := Advance(bs[..|bs| - 1], cs, dt, norm);
      var (b, cs2) := StepBall(bs[|bs| - 1], cs1, dt, norm);
      (front + [b], cs2)
  }

  /** Each advanced ball sits where its own Euler step puts it: the
      colliders met before it and the hits it takes change velocities only. */
  lemma {:induction false} AdvancedPositions(bs: seq<Ball>, cs: seq<Collider>, dt: real, norm: Vec3 -> Vec3)
    ensures forall i :: 0 <= i < |bs| ==> Advance(bs, cs, dt, norm).0[i].pos == Integrate(bs[i], dt).pos
    decreases |bs|
  {
    if |bs| > 0 {
      var front := bs[..|bs| - 1];
      AdvancedPositions(front, cs, dt, norm);
      var r := Advance(bs, cs, dt, norm).0;
      var rf := Advance(front, cs, dt, norm);
      assert r == rf.0 + [StepBall(bs[|bs| - 1], rf.1, dt, norm).0];
      forall i | 0 <= i < |bs|
        ensures r[i].pos == Integrate(bs[i], dt).pos
      {
        if i < |bs| - 1 {
          assert r[i] == rf.0[i] && bs[i] == front[i];
        }
      }
    }
  }

  function StepColliders(cs: seq<Collider>, dt: real): (r: seq<Collider>)
    ensures |r| == |cs|
    ensures forall j :: 0 <= j < |cs| ==> r[j] == StepCollider(cs[j], dt)
  {
    seq(|cs|, j requires 0 <= j < |cs| => StepCollider(cs[j], dt))
  }

  /** `update(delta)` as one function: every ball advanced, fallen balls
      removed with the counter decremented per removal, then every collider
      stepped. */
  function Step(s: Shooter, dt: real, norm: Vec3 -> Vec3): (r: Shooter)
    ensures Wf(s) ==> Wf(r)
    ensures forall b :: b in r.pool.balls ==> b.pos.y >= OutOfBoundsY
    ensures |r.colliders| == |s.colliders|
    ensures forall j :: 0 <= j < |r.colliders| ==> r.colliders[j].pos.y >= FloorY
    ensures r.pool.count == s.pool.count - (|s.pool.balls| - |r.pool.balls|)
    ensures r.held == s.held && r.nextId == s.nextId
  {
    var (moved, hit) := Advance(s.pool.balls, s.colliders, dt, norm);
    var kept := KeepInBounds(moved);
    var r := s.(pool := Pool(kept, s.pool.count - (|s.pool.balls| - |kept|)), colliders := StepColliders(hit, dt));
    assert Wf(s) ==> Wf(r) by {
      if Wf(s) {
        assert DistinctIds(moved);
        KeepInBoundsDistinct(moved);
        forall i | 0 <= i < |kept| ensures kept[i].id < s.nextId {
          assert kept[i] in moved;
        }
      }
    }
    r
  }

  /** Which balls `update` removes: exactly those whose own Euler step takes
      them below the bound, whatever they hit. The survivors are the rest,
      in their old order, each at its stepped position. */
  lemma UpdateRemovesExactlyFallen(s: Shooter, dt: real, norm: Vec3 -> Vec3)
    ensures var bs := s.pool.balls;
            var r := Step(s, dt, norm);
            var idx := SurvivorIndices(Advance(bs, s.colliders, dt, norm).0);
            && |idx| == |r.pool.balls|
            && (forall k, l :: 0 <= k < l < |idx| ==> idx[k] < idx[l])
            && (forall k :: 0 <= k < |idx| ==>
                  idx[k] < |bs|
                  && r.pool.balls[k].id == bs[idx[k]].id
                  && r.pool.balls[k].pos == Integrate(bs[idx[k]], dt).pos)
            && (forall i :: 0 <= i < |bs| ==> (i in idx <==> Integrate(bs[i], dt).pos.y >= OutOfBoundsY))
  {
    var bs := s.pool.balls;
    var moved := Advance(bs, s.colliders, dt, norm).0;
    var idx := SurvivorIndices(moved);
    AdvancedPositions(bs, s.colliders, dt, norm);
    forall i | 0 <= i < |bs|
      ensures i in idx <==> Integrate(bs[i], dt).pos.y >= OutOfBoundsY
    {
      assert moved[i].pos == Integrate(bs[i], dt).pos;
    }
  }

  /** A ball held by controller `d` is the oldest when controller `c` spawns
      a ball at the cap: it is evicted while `d` still refers to it, and the
      later release by `d` leaves the pool as it is. */
  lemma EvictionDropsHeldBall(s: Shooter, c: nat, d: nat, at: Vec3, rot: Mat3)
    requires Wf(s) && c < |s.held| && d < |s.held| && c != d
    requires s.pool.count == MaxBalls && s.held[d] == Some(s.pool.balls[0].id)
    ensures var r := OnSelectStart(s, c);
            && r.held[d] == s.held[d]
            && (forall i :: 0 <= i < |r.pool.balls| ==> r.pool.balls[i].id != s.pool.balls[0].id)
            && OnSelectEnd(r, d, at, rot).pool == r.pool
  {
    var r := OnSelectStart(s, c);
    var old0 := s.pool.balls[0].id;
    forall i | 0 <= i < |r.pool.balls| ensures r.pool.balls[i].id != old0 {
      if i < |r.pool.balls| - 1 {
        assert r.pool.balls[i] == s.pool.balls[i + 1];
      }
    }
    var e := OnSelectEnd(r, d, at, rot);
    assert e.pool.balls == r.pool.balls;
  }

  /** The collider loop of `update` for one ball, iterated in place in
      collider order as the source does, with the intended collision
      response (`HandleCollision`) in place of the one the source writes. */
  method ResolveCollisions(b: Ball, cs: seq<Collider>, norm: Vec3 -> Vec3) returns (nb: Ball, ncs: seq<Collider>)
    ensures (nb, ncs) == CollideAll(b, cs, norm)
  {
    nb, ncs := b, cs;
    var j := 0;
    while j < |cs|
      invariant 0 <= j <= |cs| && |ncs| == |cs|
      invariant (nb, ncs[..j]) == CollideAll(b, cs[..j], norm)
      invariant ncs[j..] == cs[j..]
    {
      ColliderIteration(b, cs, norm, j, nb, ncs);
      if Collides(nb.pos, ncs[j].pos) {
        var (b2, c2) := HandleCollision(nb, ncs[j], norm(Sub(nb.pos, ncs[j].pos)));
        nb := b2;
        ncs := ncs[j := c2];
      }
      j := j + 1;
    }
    assert cs[..|cs|] == cs && ncs[..|cs|] == ncs;
  }

  /** One pass of the collider loop: testing collider `j` against the ball,
      and hitting it if it is in range, extends the loop's result by that
      collider and leaves the rest of the list untouched. */
  lemma ColliderIteration(b: Ball, cs: seq<Collider>, norm: Vec3 -> Vec3, j: nat, nb: Ball, ncs: seq<Collider>)
    requires j < |cs| && |ncs| == |cs|
    requires (nb, ncs[..j]) == CollideAll(b, cs[..j], norm)
    requires ncs[j..] == cs[j..]
    ensures ncs[j] == cs[j]
    ensures Collides(nb.pos, ncs[j].pos) ==>
              var h := HandleCollision(nb, ncs[j], norm(Sub(nb.pos, ncs[j].pos)));
              && (h.0, ncs[j := h.1][..j + 1]) == CollideAll(b, cs[..j + 1], norm)
              && ncs[j := h.1][j + 1..] == cs[j + 1..]
    ensures !Collides(nb.pos, ncs[j].pos) ==>
              && (nb, ncs[..j + 1]) == CollideAll(b, cs[..j + 1], norm)
              && ncs[j + 1..] == cs[j + 1..]
  {
    assert cs[..j + 1][..j] == cs[..j];
    assert ncs[j] == ncs[j..][0] == cs[j..][0] == cs[j];
    assert ncs[..j + 1] == ncs[..j] + [ncs[j]];
    var h := HandleCollision(nb, ncs[j], norm(Sub(nb.pos, ncs[j].pos)));
    assert ncs[j := h.1][..j + 1] == ncs[..j] + [h.1];
    assert ncs[j := h.1][j + 1..] == ncs[j + 1..] == ncs[j..][1..];
  }

  /** One more ball through the loop: the advanced prefix grows by the
      stepped ball, and the survivors by it when it stays in bounds. */
  lemma BallLoopStep(bs: seq<Ball>, k: nat, cs: seq<Collider>, dt: real, norm: Vec3 -> Vec3,
                     ball: Ball, colliders: seq<Collider>)
    requires k < |bs|
    requires (ball, colliders) == StepBall(bs[k], Advance(bs[..k], cs, dt, norm).1, dt, norm)
    ensures Advance(bs[..k + 1], cs, dt, norm).1 == colliders
    ensures KeepInBounds(Advance(bs[..k + 1], cs, dt, norm).0)
            == KeepInBounds(Advance(bs[..k], cs, dt, norm).0) + (if InBounds(ball) then [ball] else [])
  {
    assert bs[..k + 1][..k] == bs[..k];
    var front := Advance(bs[..k], cs, dt, norm).0;
    assert Advance(bs[..k + 1], cs, dt, norm).0 == front + [ball];
    assert (front + [ball])[..|front|] == front;
  }

  /** What the ball loop has produced after visiting the first `k` original
      balls: the survivors so far, and the colliders as those balls left
      them. */
  function Visited(bs: seq<Ball>, cs: seq<Collider>, dt: real, norm: Vec3 -> Vec3, k: nat): (seq<Ball>, seq<Collider>)
    requires k <= |bs|
  {
    if k == 0 then ([], cs)
    else
      var (kept, hit) := Visited(bs, cs, dt, norm, k - 1);
      var (b, hit') := StepBall(bs[k - 1], hit, dt, norm);
      (kept + (if InBounds(b) then [b] else []), hit')
  }

  /** The loop's own bookkeeping agrees with `Advance` followed by the
      bounds filter. */
  lemma {:induction false} VisitedIsAdvance(bs: seq<Ball>, cs: seq<Collider>, dt: real, norm: Vec3 -> Vec3, k: nat)
    requires k <= |bs|
    ensures Visited(bs, cs, dt, norm, k).0 == KeepInBounds(Advance(bs[..k], cs, dt, norm).0)
    ensures Visited(bs, cs, dt, norm, k).1 == Advance(bs[..k], cs, dt, norm).1
  {
    if k > 0 {
      VisitedIsAdvance(bs, cs, dt, norm, k - 1);
      var hit := Advance(bs[..k - 1], cs, dt, norm).1;
      var (ball, colliders) := StepBall(bs[k - 1], hit, dt, norm);
      BallLoopStep(bs, k - 1, cs, dt, norm, ball, colliders);
    }
  }

  /** The two ways the loop rewrites `balls` at the cursor. */
  lemma SpliceAtCursor(kept: seq<Ball>, rest: seq<Ball>, ball: Ball)
    requires |rest| > 0
    ensures var balls := kept + rest; balls[..|kept|] + balls[|kept| + 1..] == kept + rest[1..]
    ensures var balls := kept + rest; balls[|kept| := ball] == (kept + [ball]) + rest[1..]
  {
  }

  /** The body of the ball loop up to the bounds test: gravity, motion,
      then the collider loop. */
  method UpdateOneBall(b: Ball, cs: seq<Collider>, dt: real, norm: Vec3 -> Vec3) returns (nb: Ball, ncs: seq<Collider>)
    ensures (nb, ncs) == StepBall(b, cs, dt, norm)
  {
    var moved := Integrate(b, dt);
    nb, ncs := ResolveCollisions(moved, cs, norm);
  }

  /** One pass of the ball loop of `update` on the ball at the cursor `i`:
      step it, then either splice it out and step the cursor back (`i--`)
      so that the ball moved into its slot is not skipped, or write it back.
      `k` counts the original balls already visited. */
  method BallIteration(bs: seq<Ball>, cs: seq<Collider>, dt: real, norm: Vec3 -> Vec3, count: int,
                       k: nat, i: int, balls: seq<Ball>, colliders: seq<Collider>, newCount: int)
    returns (i': int, balls': seq<Ball>, colliders': seq<Collider>, newCount': int)
    requires k < |bs|
    requires i == |Visited(bs, cs, dt, norm, k).0|
    requires balls == Visited(bs, cs, dt, norm, k).0 + bs[k..]
    requires colliders == Visited(bs, cs, dt, norm, k).1
    requires newCount == count - (k - i)
    ensures i' == |Visited(bs, cs, dt, norm, k + 1).0|
    ensures balls' == Visited(bs, cs, dt, norm, k + 1).0 + bs[k + 1..]
    ensures colliders' == Visited(bs, cs, dt, norm, k + 1).1
    ensures newCount' == count - (k + 1 - i')
  {
    ghost var kept := Visited(bs, cs, dt, norm, k).0;
    assert balls[i] == bs[k];
    var ball;
    ball, colliders' := UpdateOneBall(balls[i], colliders, dt, norm);
    SpliceAtCursor(kept, bs[k..], ball);
    assert bs[k..][1..] == bs[k + 1..];
    if ball.pos.y < OutOfBoundsY {
      balls' := balls[..i] + balls[i + 1..];
      i' := i - 1;
      newCount' := newCount - 1;
    } else {
      balls' := balls[i := ball];
      i' := i;
      newCount' := newCount;
    }
    i' := i' + 1;
  }

  /** The ball loop of `update`. */
  method UpdateBalls(bs: seq<Ball>, count: int, cs: seq<Collider>, dt: real, norm: Vec3 -> Vec3)
    returns (balls: seq<Ball>, newCount: int, colliders: seq<Collider>)
    ensures balls == KeepInBounds(Advance(bs, cs, dt, norm).0)
    ensures colliders == Advance(bs, cs, dt, norm).1
    ensures newCount == count - (|bs| - |balls|)
  {
    balls, newCount, colliders := bs, count, cs;
    var i: int := 0;
    var k := 0;
    while i < |balls|
      invariant 0 <= k <= |bs|
      invariant i == |Visited(bs, cs, dt, norm, k).0|
      invariant balls == Visited(bs, cs, dt, norm, k).0 + bs[k..]
      invariant colliders == Visited(bs, cs, dt, norm, k).1
      invariant newCount == count - (k - i)
      decreases |bs| - k
    {
      i, balls, colliders, newCount := BallIteration(bs, cs, dt, norm, count, k, i, balls, colliders, newCount);
      k := k + 1;
    }
    VisitedIsAdvance(bs, cs, dt, norm, k);
    assert bs[..k] == bs;
  }

  /** The collider loop of `update`. */
  method UpdateColliders(cs: seq<Collider>, dt: real) returns (colliders: seq<Collider>)
    ensures colliders == StepColliders(cs, dt)
  {
    colliders := cs;
    var j := 0;
    while j < |colliders|
      invariant 0 <= j <= |colliders| == |cs|
      invariant forall t :: 0 <= t < j ==> colliders[t] == StepCollider(cs[t], dt)
      invariant forall t :: j <= t < |colliders| ==> colliders[t] == cs[t]
    {
      colliders := colliders[j := StepCollider(colliders[j], dt)];
      j := j + 1;
    }
  }

  /** `update(delta)` with the source's loop structure: the ball loop, then
      the collider loop, each ball's hits using the intended collision
      response. It computes exactly `Step`. */
  method Update(s: Shooter, dt: real, norm: Vec3 -> Vec3) returns (r: Shooter)
    ensures r == Step(s, dt, norm)
  {
    var balls, count, colliders := UpdateBalls(s.pool.balls, s.pool.count, s.colliders, dt, norm);
    colliders := UpdateColliders(colliders, dt);
    r := Shooter(Pool(balls, count), colliders, s.held, s.nextId);
  }

  /** A ball thrown with the identity rotation (velocity `(0, 0, -5)`, see
      `LaunchWithIdentity`) from `at` is, one frame later, at
      `at + (0, -9.8 dt^2, -5 dt)` whatever it hits (hits change only its
      velocity): the Euler step the source takes, not the closed-form
      `-g dt^2 / 2`. */
  lemma ReleasedBallFirstFrame(b: Ball, at: Vec3, cs: seq<Collider>, dt: real, norm: Vec3 -> Vec3)
    requires b.vel == Vec3(0.0, 0.0, -5.0) && b.pos == at
    ensures StepBall(b, cs, dt, norm).0.pos == Vec3(at.x, at.y - Gravity * dt * dt, at.z - 5.0 * dt)
  {
    ThrownIntegrate(b, at, dt);
  }

  lemma ThrownIntegrate(b: Ball, at: Vec3, dt: real)
    requires b.vel == Vec3(0.0, 0.0, -5.0) && b.pos == at
    ensures Integrate(b, dt).pos == Vec3(at.x, at.y - Gravity * dt * dt, at.z - 5.0 * dt)
  {
    var v := Integrate(b, dt).vel;
    assert v == Vec3(0.0, 0.0 - Gravity * dt, -5.0);
    FallDistance(dt);
  }

  lemma FallDistance(dt: real)
    ensures Scale(dt, Vec3(0.0, 0.0 - Gravity * dt, -5.0)) == Vec3(0.0, -(Gravity * dt * dt), -(5.0 * dt))
  {
  }
}

=== FILE: physics.dfy ===
/** The per-frame motion rules of the ball shooter
    (src/components/ball-shooter/ball-shooter.ts): explicit-Euler
    integration of balls and colliders, the distance test between a ball and
    a collider, the impulse-and-bounce response, and the floor rule. */
module Physics {
  import opened Vector

  const Gravity: real := 9.8
  const BallRadius: real := 0.05
  /** Half the width of a collider box, used as its collision radius. */
  const ColliderHalfSize: real := 0.15
  const CollisionDistance: real := BallRadius + ColliderHalfSize
  /** Balls whose height drops below this are removed from the pool. */
  const OutOfBoundsY: real := -10.0
  /** Colliders are kept at or above this height. */
  const FloorY: real := 0.15
  /** Colliders fall at half the balls' gravity. */
  const ColliderGravityFactor: real := 0.5
  const FloorRestitution: real := 0.5
  const FloorFriction: real := 0.9
  /** Speed added to a collider along the collision direction. */
  const Impulse: real := 2.0
  /** Fraction of velocity a ball keeps after bouncing off a collider. */
  const Restitution: real := 0.7

  /** A ball mesh: `id` stands for the mesh object's identity. */
  datatype Ball = Ball(id: nat, pos: Vec3, vel: Vec3)

  /** A collider box; every collider carries a velocity from creation on. */
  datatype Collider = Collider(pos: Vec3, vel: Vec3)

  /** Gravity, then position from the already updated velocity
      (semi-implicit Euler, as the source orders the two statements). */
  function Integrate(b: Ball, dt: real): (r: Ball)
    ensures r.id == b.id
    ensures r.vel.x == b.vel.x && r.vel.z == b.vel.z
    ensures r.vel.y == b.vel.y - Gravity * dt
    ensures r.pos == Add(b.pos, Scale(dt, r.vel))
  {
    var v := b.vel.(y := b.vel.y - Gravity * dt);
    b.(pos := Add(b.pos, Scale(dt, v)), vel := v)
  }

  /** `checkCollision`: centre distance strictly below the sum of the radii,
      compared on squares. */
  predicate Collides(ballPos: Vec3, colliderPos: Vec3) {
    DistSq(ballPos, colliderPos) < Sq(CollisionDistance)
  }

  /** Comparing squared distances decides the same as the source's
      `distance < radiusSum`; in particular a distance of exactly 0.2 is no hit. */
  lemma CollidesIffCloserThanRadii(p: Vec3, q: Vec3, d: real)
    requires IsDistance(p, q, d)
    ensures Collides(p, q) <==> d < CollisionDistance
    ensures d == CollisionDistance ==> !Collides(p, q)
  {
    SquareMonotone(d, CollisionDistance);
  }

  /** `handleCollision` with the intended response, given the normalised
      direction `n` from the collider to the ball: the collider gains
      `Impulse * n` and the ball's velocity becomes `Restitution` times its
      reflection about `n`. */
  function HandleCollision(b: Ball, c: Collider, n: Vec3): (r: (Ball, Collider))
    ensures r.0.id == b.id && r.0.pos == b.pos
    ensures r.1.pos == c.pos
    ensures r.1.vel == Add(c.vel, Scale(Impulse, n))
    ensures n == Zero ==> r.0.vel == Scale(Restitution, b.vel)
  {
    (b.(vel := Scale(Restitution, Reflect(b.vel, n))), c.(vel := Add(c.vel, Scale(Impulse, n))))
  }

  /** For a unit direction the ball keeps 0.7 of its speed (compared on squares)
      and the velocity component along `n` is reversed and damped by the same factor. */
  lemma CollisionDampsSpeed(b: Ball, c: Collider, n: Vec3)
    requires IsUnit(n)
    ensures NormSq(HandleCollision(b, c, n).0.vel) == Sq(Restitution) * NormSq(b.vel)
    ensures Dot(HandleCollision(b, c, n).0.vel, n) == -Restitution * Dot(b.vel, n)
  {
    var w := Reflect(b.vel, n);
    ReflectUnit(b.vel, n);
    ScaleNormSq(Restitution, w);
  }

  /** `handleCollision` exactly as the source writes it: `multiplyScalar(2)`
      scales the direction vector in place before it is handed to `reflect`,
      so the ball is reflected about `Impulse * n` instead of `n`. */
  function HandleCollisionAsWritten(b: Ball, c: Collider, n: Vec3): (r: (Ball, Collider))
    ensures r.0.id == b.id && r.0.pos == b.pos
    ensures r.1 == HandleCollision(b, c, n).1
  {
    var pushed := Scale(Impulse, n);
    (b.(vel := Scale(Restitution, Reflect(b.vel, pushed))), c.(vel := Add(c.vel, pushed)))
  }

  /** Under the source as written, for any unit direction, the velocity
      component along `n` comes back reversed and multiplied by 4.9 instead
      of 0.7, and the squared speed grows by 48 times the squared normal
      component before damping. */
  lemma AsWrittenReversesSevenfold(b: Ball, c: Collider, n: Vec3)
    requires IsUnit(n)
    ensures Dot(HandleCollisionAsWritten(b, c, n).0.vel, n) == -4.9 * Dot(b.vel, n)
    ensures NormSq(HandleCollisionAsWritten(b, c, n).0.vel)
              == Sq(Restitution) * (NormSq(b.vel) + 48.0 * Sq(Dot(b.vel, n)))
  {
    var d := Dot(b.vel, n);
    var w := Reflect(b.vel, Scale(Impulse, n));
    ReflectScaled(b.vel, n, Impulse);
    assert w == Sub(b.vel, Scale(8.0 * d, n));
    SubAlongUnit(b.vel, n, 8.0 * d);
    assert NormSq(w) == NormSq(b.vel) + 48.0 * Sq(d);
    ScaleNormSq(Restitution, w);
  }

  /** Whenever the ball moves along the direction at all, the response as
      written leaves it faster than the intended one does. */
  lemma AsWrittenFasterThanIntended(b: Ball, c: Collider, n: Vec3)
    requires IsUnit(n) && Dot(b.vel, n) != 0.0
    ensures NormSq(HandleCollisionAsWritten(b, c, n).0.vel) > NormSq(HandleCollision(b, c, n).0.vel)
  {
    AsWrittenReversesSevenfold(b, c, n);
    CollisionDampsSpeed(b, c, n);
    GrowsByPositive(Sq(Restitution), NormSq(b.vel), Dot(b.vel, n));
  }

  lemma GrowsByPositive(k: real, a: real, d: real)
    requires k > 0.0 && d != 0.0
    ensures k * (a + 48.0 * Sq(d)) > k * a
  {
    var s := Sq(d);
    SquarePositive(d);
    var e := 48.0 * s;
    assert e > 0.0;
    MulPositive(k, e);
    assert k * (a + e) == k * a + k * e;
  }

  /** The two responses put a hit ball in different places one frame later:
      the gap along `n` is `4.2 (v . n) dt`. So from the frame after a hit
      on, the ball's path, and with it later hits and whether it falls out,
      depend on which response is used. */
  lemma AsWrittenDivergesNextFrame(b: Ball, c: Collider, n: Vec3, dt: real)
    requires IsUnit(n) && Dot(b.vel, n) != 0.0 && dt != 0.0
    ensures Integrate(HandleCollision(b, c, n).0, dt).pos
            != Integrate(HandleCollisionAsWritten(b, c, n).0, dt).pos
  {
    var d := Dot(b.vel, n);
    var v1 := HandleCollision(b, c, n).0.vel;
    var v2 := HandleCollisionAsWritten(b, c, n).0.vel;
    CollisionDampsSpeed(b, c, n);
    AsWrittenReversesSevenfold(b, c, n);
    var p1 := Integrate(HandleCollision(b, c, n).0, dt).pos;
    var p2 := Integrate(HandleCollisionAsWritten(b, c, n).0, dt).pos;
    assert Sub(p1, p2) == Scale(dt, Sub(v1, v2));
    assert Dot(Sub(v1, v2), n) == 4.2 * d;
    DotScale(dt, Sub(v1, v2), n);
    NonZeroTimes(dt, 4.2 * d);
    assert Dot(Sub(p1, p2), n) != 0.0;
  }

  lemma DotScale(k: real, u: Vec3, n: Vec3)
    ensures Dot(Scale(k, u), n) == k * Dot(u, n)
  {
  }

  lemma NonZeroTimes(a: real, b: real)
    requires a != 0.0 && b != 0.0
    ensures a * b != 0.0
  {
    assert a * b / b == a;
  }

  /** The concrete input: a ball moving at 1 unit/s hitting a collider
      head-on along the x axis comes back at 4.9 units/s, so its squared
      speed is 24.01 instead of 0.49. */
  lemma AsWrittenGainsSpeed()
    ensures var b := Ball(0, Zero, Vec3(1.0, 0.0, 0.0));
            var c := Collider(Vec3(-0.1, 0.0, 0.0), Zero);
            var n := Vec3(1.0, 0.0, 0.0);
            && IsUnit(n)
            && Dot(HandleCollisionAsWritten(b, c, n).0.vel, n) == -4.9
            && NormSq(HandleCollisionAsWritten(b, c, n).0.vel) == 24.01
            && NormSq(HandleCollision(b, c, n).0.vel) == 0.49
  {
    var b := Ball(0, Zero, Vec3(1.0, 0.0, 0.0));
    var c := Collider(Vec3(-0.1, 0.0, 0.0), Zero);
    var n := Vec3(1.0, 0.0, 0.0);
    assert NormSq(n) == 1.0;
    assert Dot(b.vel, n) == 1.0;
    assert NormSq(b.vel) == 1.0;
    HeadOnUnitHit(b, c, n);
  }

  /** A hit at unit speed straight along a unit direction. */
  lemma HeadOnUnitHit(b: Ball, c: Collider, n: Vec3)
    requires IsUnit(n) && Dot(b.vel, n) == 1.0 && NormSq(b.vel) == 1.0
    ensures Dot(HandleCollisionAsWritten(b, c, n).0.vel, n) == -4.9
    ensures NormSq(HandleCollisionAsWritten(b, c, n).0.vel) == 24.01
    ensures NormSq(HandleCollision(b, c, n).0.vel) == 0.49
  {
    AsWrittenReversesSevenfold(b, c, n);
    CollisionDampsSpeed(b, c, n);
    assert Sq(Restitution) == 0.49;
    assert Sq(Dot(b.vel, n)) == 1.0;
  }

  /** The collider loop for one ball, in collider order: every collider the
      ball's (unchanged) position is close to receives a hit, with the
      intended response `HandleCollision`. What the colliders gain
      (`CollideAllImpulses`) is the same under the response as written,
      which treats the collider alike and never moves the ball. `norm` is
      the engine's `normalize`. */
  function CollideAll(b: Ball, cs: seq<Collider>, norm: Vec3 -> Vec3): (r: (Ball, seq<Collider>))
    ensures r.0.id == b.id && r.0.pos == b.pos
    ensures |r.1| == |cs|
    ensures forall j :: 0 <= j < |cs| ==> r.1[j].pos == cs[j].pos
    ensures forall j :: 0 <= j < |cs| && !Collides(b.pos, cs[j].pos) ==> r.1[j] == cs[j]
    ensures (forall j :: 0 <= j < |cs| ==> !Collides(b.pos, cs[j].pos)) ==> r.0 == b
    decreases |cs|
  {
    if |cs| == 0 then (b, cs)
    else
      var (b1, front) := CollideAll(b, cs[..|cs| - 1], norm);
      var c := cs[|cs| - 1];
      if Collides(b1.pos, c.pos) then
        var (b2, c2) := HandleCollision(b1, c, norm(Sub(b1.pos, c.pos)));
        (b2, front + [c2])
      else
        (b1, front + [c])
  }

  /** Every collider in range of the ball gains exactly `Impulse` times the
      normalised direction from it to the ball, once. */
  lemma {:induction false} CollideAllImpulses(b: Ball, cs: seq<Collider>, norm: Vec3 -> Vec3)
    ensures forall j :: 0 <= j < |cs| && Collides(b.pos, cs[j].pos) ==>
              CollideAll(b, cs, norm).1[j].vel == Add(cs[j].vel, Scale(Impulse, norm(Sub(b.pos, cs[j].pos))))
    decreases |cs|
  {
    if |cs| > 0 {
      CollideAllImpulses(b, cs[..|cs| - 1], norm);
    }
  }

  /** One iteration of the ball loop before the bounds test. The ball's new
      position depends only on its own state: hits change velocities only. */
  function StepBall(b: Ball, cs: seq<Collider>, dt: real, norm: Vec3 -> Vec3): (r: (Ball, seq<Collider>))
    ensures r.0.id == b.id
    ensures r.0.pos == Integrate(b, dt).pos
    ensures |r.1| == |cs|
    ensures forall j :: 0 <= j < |cs| ==> r.1[j].pos == cs[j].pos
  {
    CollideAll(Integrate(b, dt), cs, norm)
  }

  /** With no collider in range, a ball step is pure Euler flight:
      `v.y` loses `9.8 dt`, `v.x` and `v.z` are kept, and the position
      advances by the new velocity times `dt`. */
  lemma FreeFlight(b: Ball, cs: seq<Collider>, dt: real, norm: Vec3 -> Vec3)
    requires forall j :: 0 <= j < |cs| ==> !Collides(Integrate(b, dt).pos, cs[j].pos)
    ensures var r := StepBall(b, cs, dt, norm);
            && r.1 == cs
            && r.0.vel == Vec3(b.vel.x, b.vel.y - Gravity * dt, b.vel.z)
            && r.0.pos == Add(b.pos, Scale(dt, r.0.vel))
  {
  }

  /** The floor test of the collider loop, on the state after gravity and motion. */
  predicate HitsFloor(c: Collider, dt: real) {
    c.pos.y + (c.vel.y - Gravity * dt * ColliderGravityFactor) * dt < FloorY
  }

  /** One iteration of the collider loop: half gravity, motion, then the
      clamp-and-damp floor rule. */
  function StepCollider(c: Collider, dt: real): (r: Collider)
    ensures r.pos.y >= FloorY
    ensures r.pos.x == c.pos.x + c.vel.x * dt && r.pos.z == c.pos.z + c.vel.z * dt
    ensures HitsFloor(c, dt) ==>
              && r.pos.y == FloorY
              && r.vel.y == -(c.vel.y - Gravity * dt * ColliderGravityFactor) * FloorRestitution
              && r.vel.x == FloorFriction * c.vel.x
              && r.vel.z == FloorFriction * c.vel.z
    ensures !HitsFloor(c, dt) ==>
              && r.vel == c.vel.(y := c.vel.y - Gravity * dt * ColliderGravityFactor)
              && r.pos.y == c.pos.y + r.vel.y * dt
  {
    var v := c.vel.(y := c.vel.y - Gravity * dt * ColliderGravityFactor);
    var p := Vec3(c.pos.x + v.x * dt, c.pos.y + v.y * dt, c.pos.z + v.z * dt);
    if p.y < FloorY then
      Collider(p.(y := FloorY), Vec3(FloorFriction * v.x, -v.y * FloorRestitution, FloorFriction * v.z))
    else
      Collider(p, v)
  }

  /** A collider sitting on the floor whose vertical speed is below the
      speed gravity adds in one frame: it is clamped again every frame. */
  predicate Resting(c: Collider, dt: real) {
    && c.pos.y == FloorY
    && -(Gravity * dt * ColliderGravityFactor) < c.vel.y < Gravity * dt * ColliderGravityFactor
  }

  /** A resting collider hits the floor again, stays resting, and loses a
      tenth of its horizontal velocity, without the sign changing. */
  lemma RestingStep(c: Collider, dt: real)
    requires dt > 0.0 && Resting(c, dt)
    ensures HitsFloor(c, dt)
    ensures Resting(StepCollider(c, dt), dt)
    ensures StepCollider(c, dt).vel.x == FloorFriction * c.vel.x
    ensures StepCollider(c, dt).vel.z == FloorFriction * c.vel.z
  {
    var h := Gravity * dt * ColliderGravityFactor;
    MulNegPos(c.vel.y - h, dt);
  }

  lemma MulAssoc(a: real, b: real, c: real)
    ensures a * (b * c) == (a * b) * c
  {
  }

  function Pow(k: real, n: nat): (r: real)
    requires 0.0 < k <= 1.0
    ensures 0.0 < r <= 1.0
  {
    if n == 0 then 1.0 else
      var p := Pow(k, n - 1);
      assert k * p <= p;
      k * p
  }

  /** `n` frames of the collider rule with a constant frame time. */
  function StepColliderN(c: Collider, dt: real, n: nat): Collider {
    if n == 0 then c else StepCollider(StepColliderN(c, dt, n - 1), dt)
  }

  /** Horizontal velocity after `n` clamped frames: multiplied by the
      friction factor once per frame. It keeps its sign and, unless it is
      zero, strictly shrinks with every frame. */
  function Decay(x: real, n: nat): (r: real)
    ensures x > 0.0 ==> 0.0 < r <= x
    ensures x < 0.0 ==> x <= r < 0.0
    ensures x == 0.0 ==> r == 0.0
    ensures n > 0 && x > 0.0 ==> r < x
    ensures n > 0 && x < 0.0 ==> x < r
  {
    if n == 0 then x else FloorFriction * Decay(x, n - 1)
  }

  /** Each further frame of friction moves a non-zero velocity strictly
      closer to zero. */
  lemma DecayShrinksEachFrame(x: real, n: nat)
    ensures x > 0.0 ==> Decay(x, n + 1) < Decay(x, n)
    ensures x < 0.0 ==> Decay(x, n) < Decay(x, n + 1)
  {
  }

  lemma {:induction false} DecayIsPower(x: real, n: nat)
    ensures Decay(x, n) == Pow(FloorFriction, n) * x
  {
    if n > 0 {
      DecayIsPower(x, n - 1);
      MulAssoc(FloorFriction, Pow(FloorFriction, n - 1), x);
    }
  }

  lemma {:induction false} StaysResting(c: Collider, dt: real, n: nat)
    requires dt > 0.0 && Resting(c, dt)
    ensures Resting(StepColliderN(c, dt, n), dt)
  {
    if n > 0 {
      StaysResting(c, dt, n - 1);
      RestingStep(StepColliderN(c, dt, n - 1), dt);
    }
  }

  lemma {:induction false} RestingDecayX(c: Collider, dt: real, n: nat)
    requires dt > 0.0 && Resting(c, dt)
    ensures StepColliderN(c, dt, n).vel.x == Decay(c.vel.x, n)
  {
    if n > 0 {
      StaysResting(c, dt, n - 1);
      RestingDecayX(c, dt, n - 1);
      RestingStep(StepColliderN(c, dt, n - 1), dt);
    }
  }

  lemma {:induction false} RestingDecayZ(c: Collider, dt: real, n: nat)
    requires dt > 0.0 && Resting(c, dt)
    ensures StepColliderN(c, dt, n).vel.z == Decay(c.vel.z, n)
  {
    if n > 0 {
      StaysResting(c, dt, n - 1);
      RestingDecayZ(c, dt, n - 1);
      RestingStep(StepColliderN(c, dt, n - 1), dt);
    }
  }

  /** A resting collider settles: after `n` frames it still sits on the floor
      and its horizontal velocity has decayed by the friction factor once per
      frame (`0.9^n` times the original, by `DecayIsPower`), so it shrinks
      towards zero and never reverses. */
  lemma RestingColliderSettles(c: Collider, dt: real, n: nat)
    requires dt > 0.0 && Resting(c, dt)
    ensures Resting(StepColliderN(c, dt, n), dt)
    ensures StepColliderN(c, dt, n).vel.x == Decay(c.vel.x, n)
    ensures StepColliderN(c, dt, n).vel.z == Decay(c.vel.z, n)
  {
    StaysResting(c, dt, n);
    RestingDecayX(c, dt, n);
    RestingDecayZ(c, dt, n);
  }
}

=== FILE: pinch_detector.dfy ===
/** `PinchDetector`: whether the index-finger tip and the thumb tip of a
    tracked hand are close enough to count as a pinch, and where the pinch
    is. A tracked hand may lack either joint. */
module PinchDetector {
  import opened Wrappers
  import opened Vector

  /** Two centimetres, in metres. */
  const PinchThreshold: real := 0.02

  /** The two joints the detector reads; `None` for a joint the hand does
      not report. */
  datatype Hand = Hand(indexTip: Option<Vec3>, thumbTip: Option<Vec3>)

  predicate Tracked(h: Hand) {
    h.indexTip.Some? && h.thumbTip.Some?
  }

  /** `detectPinch`: no pinch without both joints; otherwise a pinch when
      the tips are strictly closer than the threshold (compared on
      squares; see `PinchIffCloserThanThreshold` for the distance). */
  function DetectPinch(h: Hand): (r: bool)
    ensures r ==> Tracked(h)
    ensures Tracked(h) && h.indexTip.value == h.thumbTip.value ==> r
  {
    match (h.indexTip, h.thumbTip)
    case (Some(a), Some(b)) => DistSq(a, b) < Sq(PinchThreshold)
    case _ => false
  }

  /** The detector's verdict in terms of the tip distance `d` the engine
      computes: a pinch exactly when `d < 0.02`, and none at `d == 0.02`. */
  lemma PinchIffCloserThanThreshold(h: Hand, d: real)
    requires Tracked(h) && IsDistance(h.indexTip.value, h.thumbTip.value, d)
    ensures DetectPinch(h) <==> d < PinchThreshold
    ensures d == PinchThreshold ==> !DetectPinch(h)
  {
    SquareMonotone(d, PinchThreshold);
  }

  /** `getPinchMidpoint`: `None` exactly when a joint is missing; otherwise
      the point halfway between the tips, equally far from both. */
  function GetPinchMidpoint(h: Hand): (r: Option<Vec3>)
    ensures r.None? <==> !Tracked(h)
    ensures r.Some? ==> Add(r.value, r.value) == Add(h.indexTip.value, h.thumbTip.value)
    ensures r.Some? ==> DistSq(r.value, h.indexTip.value) == DistSq(r.value, h.thumbTip.value)
  {
    match (h.indexTip, h.thumbTip)
    case (Some(a), Some(b)) =>
      var m := Scale(0.5, Add(a, b));
      HalfwayEquidistant(a, b);
      Some(m)
    case _ => None
  }

  lemma HalfwayEquidistant(a: Vec3, b: Vec3)
    ensures var m := Scale(0.5, Add(a, b));
            DistSq(m, a) == DistSq(m, b)
  {
    var m := Scale(0.5, Add(a, b));
    var h := Scale(0.5, Sub(b, a));
    assert Sub(m, a) == h;
    assert Sub(m, b) == Scale(-1.0, h);
    NegateNormSq(h);
  }

  lemma NegateNormSq(v: Vec3)
    ensures NormSq(Scale(-1.0, v)) == NormSq(v)
  {
  }

  /** Swapping the two joints changes neither the verdict nor the midpoint. */
  lemma PinchSymmetric(a: Option<Vec3>, b: Option<Vec3>)
    ensures DetectPinch(Hand(a, b)) == DetectPinch(Hand(b, a))
    ensures GetPinchMidpoint(Hand(a, b)) == GetPinchMidpoint(Hand(b, a))
  {
    if a.Some? && b.Some? {
      SwapDistSq(a.value, b.value);
    }
  }

  lemma SwapDistSq(a: Vec3, b: Vec3)
    ensures DistSq(a, b) == DistSq(b, a)
  {
    assert Sub(b, a) == Scale(-1.0, Sub(a, b));
    NegateNormSq(Sub(a, b));
  }
}

=== FILE: pinch_manager.dfy ===
/** `PinchInteractionManager`: the pinch state machine shared by the hand
    path (`updateVR`) and the mouse path (shift + left button), over a list
    of pinchable objects. Raycasts are inputs: the object index hit first
    and the point hit, if any. */
module PinchInteractionManager {
  import opened Wrappers
  import opened Vector
  import opened PinchDetector
  import opened PinchableObject

  /** The first intersection a raycast reports. */
  datatype Hit = Hit(index: nat, point: Vec3)

  /** `selected` indexes `objects`; it stands for the `selectedObject`
      reference. */
  datatype Manager = Manager(
    objects: seq<Pinchable>,
    isPinching: bool,
    pinchStart: Vec3,
    pinchCurrent: Vec3,
    selected: Option<nat>)

  /** The invariant every operation keeps: a selection is a listed object,
      exists only during a pinch, and is shown highlighted; every object
      is part-way through any return. */
  predicate Valid(m: Manager) {
    && (m.selected.Some? ==> m.selected.value < |m.objects|)
    && (m.selected.Some? ==> m.isPinching)
    && (m.selected.Some? ==> Highlighted(m.objects[m.selected.value]))
    && (forall i :: 0 <= i < |m.objects| ==> PinchableObject.Wf(m.objects[i]))
  }

  /** A raycast against the listed objects can only report one of them. */
  predicate HitListed(m: Manager, hit: Option<Hit>) {
    hit.Some? ==> hit.value.index < |m.objects|
  }

  /** The manager as constructed: no objects, no pinch. */
  function Create(): (m: Manager)
    ensures Valid(m) && !m.isPinching && m.selected.None? && |m.objects| == 0
  {
    Manager([], false, Zero, Zero, None)
  }

  /** `addPinchableObject`: appended; the pinch state is untouched. A
      created object is never mid-return, so the invariant carries over. */
  function AddPinchableObject(m: Manager, o: Pinchable): (r: Manager)
    ensures Valid(m) && PinchableObject.Wf(o) ==> Valid(r)
    ensures r.objects == m.objects + [o]
    ensures r == m.(objects := r.objects)
  {
    var r := m.(objects := m.objects + [o]);
    assert Valid(m) && PinchableObject.Wf(o) ==> Valid(r) by {
      if Valid(m) && PinchableObject.Wf(o) {
        forall i | 0 <= i < |r.objects| ensures PinchableObject.Wf(r.objects[i]) {
          if i < |m.objects| { assert r.objects[i] == m.objects[i]; }
        }
      }
    }
    r
  }

  /** The stretch factor for a pinch dragged over distance `dist`: 1 for no
      movement, growing strictly with the distance. */
  function ExtensionFactor(dist: real): (f: real)
    requires dist >= 0.0
    ensures f >= 1.0
    ensures f == 1.0 <==> dist == 0.0
  {
    1.0 + dist * 2.0
  }

  /** A longer drag stretches strictly more, and equal drags equally. */
  lemma FactorGrowsWithDistance(a: Vec3, b: Vec3, d: real, c: Vec3, e: Vec3, d': real)
    requires IsDistance(a, b, d) && IsDistance(c, e, d')
    ensures ExtensionFactor(d) < ExtensionFactor(d') <==> DistSq(a, b) < DistSq(c, e)
  {
    SquareMonotone(d, d');
  }

  /** `handlePinchStart(position)`: a pinch begins whether or not the ray
      hits; only a hit selects (and highlights) an object. The ray is cast
      by the caller; `hit` is its first result. */
  function HandlePinchStart(m: Manager, position: Vec3, hit: Option<nat>): (r: Manager)
    requires hit.Some? ==> hit.value < |m.objects|
    ensures r.isPinching && r.pinchStart == position && r.pinchCurrent == m.pinchCurrent
    ensures |r.objects| == |m.objects|
    ensures hit.None? ==> r == m.(isPinching := true, pinchStart := position)
    ensures hit.Some? ==> r.selected == hit && Highlighted(r.objects[hit.value])
    ensures hit.Some? ==> r.objects == m.objects[hit.value := UpdateAppearance(m.objects[hit.value], true)]
    ensures hit.Some? ==>
              var o, p := m.objects[hit.value], r.objects[hit.value];
              && p.scale == o.scale && p.initialScale == o.initialScale
              && p.isReturning == o.isReturning && p.returnProgress == o.returnProgress
    ensures forall i :: 0 <= i < |m.objects| && Some(i) != hit ==> r.objects[i] == m.objects[i]
    ensures Valid(m) ==> Valid(r)
  {
    var started := m.(isPinching := true, pinchStart := position);
    match hit
    case None => started
    case Some(i) =>
      var r := started.(selected := Some(i), objects := started.objects[i := UpdateAppearance(m.objects[i], true)]);
      assert Valid(m) ==> Valid(r) by {
        if Valid(m) {
          forall j | 0 <= j < |r.objects| ensures PinchableObject.Wf(r.objects[j]) {
            assert PinchableObject.Wf(m.objects[j]);
          }
        }
      }
      r
  }

  /** The direction of the drag. The source normalises it, but `extend`
      only looks at which axes are non-zero, and normalising keeps those
      (`ExtendDirectionScaleFree`), so the raw difference stands in. */
  function DragDirection(m: Manager): Vec3 {
    Sub(m.pinchCurrent, m.pinchStart)
  }

  /** `handleOngoingPinch()`, with `dist` the start-to-current distance.
      Without a selection nothing happens; otherwise only the selected
      object changes, stretched from its initial scale along the axes the
      drag moves on, never below its initial size on any non-negative axis. */
  function HandleOngoingPinch(m: Manager, dist: real): (r: Manager)
    requires Valid(m)
    requires IsDistance(m.pinchCurrent, m.pinchStart, dist)
    ensures m.selected.None? ==> r == m
    ensures m.selected.Some? ==>
              var i := m.selected.value;
              && r == m.(objects := r.objects)
              && |r.objects| == |m.objects|
              && (forall j :: 0 <= j < |m.objects| && j != i ==> r.objects[j] == m.objects[j])
              && r.objects[i] == m.objects[i].(scale := r.objects[i].scale)
    ensures m.selected.Some? && m.pinchCurrent == m.pinchStart ==>
              r.objects[m.selected.value].scale == m.objects[m.selected.value].initialScale
    ensures Valid(r)
  {
    match m.selected
    case None => m
    case Some(i) =>
      var o := Extend(m.objects[i], DragDirection(m), ExtensionFactor(dist));
      var r := m.(objects := m.objects[i := o]);
      assert Valid(r) by {
        forall j | 0 <= j < |r.objects| ensures PinchableObject.Wf(r.objects[j]) {
          assert PinchableObject.Wf(m.objects[j]);
        }
      }
      r
  }

  /** A drag of any positive length stretches the selected object by the
      factor `1 + 2 dist` on exactly the axes along which it moved. */
  lemma OngoingPinchStretches(m: Manager, dist: real)
    requires Valid(m) && m.selected.Some?
    requires IsDistance(m.pinchCurrent, m.pinchStart, dist)
    ensures var i := m.selected.value;
            var d := DragDirection(m);
            var s := HandleOngoingPinch(m, dist).objects[i].scale;
            var init := m.objects[i].initialScale;
            && (d.x != 0.0 ==> s.x == init.x * (1.0 + dist * 2.0))
            && (d.x == 0.0 ==> s.x == init.x)
            && (d.y != 0.0 ==> s.y == init.y * (1.0 + dist * 2.0))
            && (d.y == 0.0 ==> s.y == init.y)
            && (d.z != 0.0 ==> s.z == init.z * (1.0 + dist * 2.0))
            && (d.z == 0.0 ==> s.z == init.z)
  {
    var i := m.selected.value;
    ExtendPerAxis(m.objects[i], DragDirection(m), ExtensionFactor(dist));
  }

  /** `handlePinchEnd()`: the pinch is over and nothing is selected; the
      object that was selected loses its highlight and starts returning. */
  function HandlePinchEnd(m: Manager): (r: Manager)
    requires Valid(m)
    ensures !r.isPinching && r.selected.None? && Valid(r)
    ensures r.pinchStart == m.pinchStart && r.pinchCurrent == m.pinchCurrent
    ensures |r.objects| == |m.objects|
    ensures m.selected.Some? ==>
              var o := r.objects[m.selected.value];
              && o.isReturning && o.returnProgress == 0.0 && !Highlighted(o)
              && o.scale == m.objects[m.selected.value].scale
              && o.initialScale == m.objects[m.selected.value].initialScale
    ensures m.selected.Some? ==>
              r.objects == m.objects[m.selected.value :=
                             StartElasticReturn(UpdateAppearance(m.objects[m.selected.value], false))]
    ensures forall j :: 0 <= j < |m.objects| && Some(j) != m.selected ==> r.objects[j] == m.objects[j]
  {
    match m.selected
    case None => m.(isPinching := false)
    case Some(i) =>
      var o := StartElasticReturn(UpdateAppearance(m.objects[i], false));
      var r := m.(isPinching := false, selected := None, objects := m.objects[i := o]);
      assert Valid(r) by {
        forall j | 0 <= j < |r.objects| ensures PinchableObject.Wf(r.objects[j]) {
          assert PinchableObject.Wf(m.objects[j]);
        }
      }
      r
  }

  /** `updateVR(hand)`, with `hit` the first object under the ray cast from
      the pinch point and `dist` the distance from the pinch start to the
      midpoint. Without a midpoint nothing changes. Otherwise the midpoint
      becomes the current pinch position and: a pinch while idle starts
      one there; a pinch while pinching with a selection continues it; a
      release while pinching ends it; any other combination changes only
      the current position. */
  function UpdateVR(m: Manager, h: Hand, hit: Option<nat>, dist: real): (r: Manager)
    requires Valid(m)
    requires hit.Some? ==> hit.value < |m.objects|
    requires GetPinchMidpoint(h).Some? ==> IsDistance(GetPinchMidpoint(h).value, m.pinchStart, dist)
    ensures Valid(r)
    ensures !Tracked(h) ==> r == m
    ensures Tracked(h) ==> r.pinchCurrent == GetPinchMidpoint(h).value
    ensures Tracked(h) && DetectPinch(h) && !m.isPinching ==>
              r == HandlePinchStart(m.(pinchCurrent := r.pinchCurrent), r.pinchCurrent, hit)
    ensures Tracked(h) && DetectPinch(h) && m.isPinching && m.selected.Some? ==>
              r == HandleOngoingPinch(m.(pinchCurrent := r.pinchCurrent), dist)
    ensures Tracked(h) && !DetectPinch(h) && m.isPinching ==>
              r == HandlePinchEnd(m.(pinchCurrent := r.pinchCurrent))
    ensures Tracked(h) && (DetectPinch(h) == m.isPinching) && m.selected.None? ==>
              r == m.(pinchCurrent := r.pinchCurrent)
  {
    var pinching := DetectPinch(h);
    match GetPinchMidpoint(h)
    case None => m
    case Some(p) =>
      var n := m.(pinchCurrent := p);
      if pinching && !n.isPinching then HandlePinchStart(n, n.pinchCurrent, hit)
      else if pinching && n.isPinching && n.selected.Some? then HandleOngoingPinch(n, dist)
      else if !pinching && n.isPinching then HandlePinchEnd(n)
      else n
  }

  /** `onMouseDown`: only shift with the primary button (0) on an object
      starts a pinch, which selects and highlights that object and puts
      both pinch positions at the point hit. Anything else changes nothing. */
  function OnMouseDown(m: Manager, shiftKey: bool, button: int, hit: Option<Hit>): (r: Manager)
    requires Valid(m) && HitListed(m, hit)
    ensures !(shiftKey && button == 0 && hit.Some?) ==> r == m
    ensures shiftKey && button == 0 && hit.Some? ==>
              && r.isPinching && r.selected == Some(hit.value.index)
              && r.pinchStart == hit.value.point && r.pinchCurrent == hit.value.point
              && r.objects == m.objects[hit.value.index := UpdateAppearance(m.objects[hit.value.index], true)]
              && Highlighted(r.objects[hit.value.index])
    ensures Valid(r)
  {
    if shiftKey && button == 0 then
      match hit
      case None => m
      case Some(Hit(i, point)) =>
        var r := m.(isPinching := true, selected := Some(i),
                    objects := m.objects[i := UpdateAppearance(m.objects[i], true)],
                    pinchStart := point, pinchCurrent := point);
        assert Valid(r) by {
          forall j | 0 <= j < |r.objects| ensures PinchableObject.Wf(r.objects[j]) {
            assert PinchableObject.Wf(m.objects[j]);
          }
        }
        r
    else m
  }

  /** `onMouseMove`, with `hit` the point where the ray meets the selected
      object and `dist` its distance from the pinch start: during a pinch
      with a selection, a hit moves the current position there and
      continues the pinch; otherwise nothing changes. */
  function OnMouseMove(m: Manager, hit: Option<Vec3>, dist: real): (r: Manager)
    requires Valid(m)
    requires hit.Some? ==> IsDistance(hit.value, m.pinchStart, dist)
    ensures !(m.isPinching && m.selected.Some? && hit.Some?) ==> r == m
    ensures m.isPinching && m.selected.Some? && hit.Some? ==>
              r == HandleOngoingPinch(m.(pinchCurrent := hit.value), dist)
    ensures Valid(r)
  {
    if m.isPinching && m.selected.Some? then
      match hit
      case None => m
      case Some(p) => HandleOngoingPinch(m.(pinchCurrent := p), dist)
    else m
  }

  /** `onMouseUp`: ends the pinch only if one is in progress; afterwards
      there is never a pinch or a selection. */
  function OnMouseUp(m: Manager): (r: Manager)
    requires Valid(m)
    ensures !m.isPinching ==> r == m
    ensures m.isPinching ==> r == HandlePinchEnd(m)
    ensures !r.isPinching && r.selected.None? && Valid(r)
  {
    if m.isPinching then HandlePinchEnd(m) else m
  }

  /** `update(hand, deltaTime)`: the hand path is switched off in the
      source, so the hand is ignored; each object takes one frame of its
      elastic return, `eases[i]` being the eased scale for object `i`. The
      pinch state is untouched. */
  function Update(m: Manager, h: Option<Hand>, dt: real, eases: seq<Vec3>): (r: Manager)
    requires Valid(m) && |eases| == |m.objects|
    ensures r == m.(objects := r.objects) && |r.objects| == |m.objects|
    ensures forall i :: 0 <= i < |m.objects| ==>
              r.objects[i] == UpdateElasticReturn(m.objects[i], dt, eases[i]).0
    ensures Valid(r)
  {
    var r := m.(objects := seq(|m.objects|, i requires 0 <= i < |m.objects| =>
                                UpdateElasticReturn(m.objects[i], dt, eases[i]).0));
    assert Valid(r) by {
      if m.selected.Some? {
        var s := m.selected.value;
        assert r.objects[s].emissive == m.objects[s].emissive;
      }
    }
    r
  }

  /** A frame of `update` never disturbs an object that is not returning. */
  lemma UpdateSparesIdleObjects(m: Manager, h: Option<Hand>, dt: real, eases: seq<Vec3>, i: nat)
    requires Valid(m) && |eases| == |m.objects| && i < |m.objects|
    requires !m.objects[i].isReturning
    ensures Update(m, h, dt, eases).objects[i] == m.objects[i]
  {
  }

  /** Pressing does not stop a return already under way: an object grabbed
      while it springs back stays selected and highlighted, but the next
      frame still moves it along its return, to the eased scale. */
  lemma GrabDuringReturnKeepsReturning(m: Manager, hit: Hit, dt: real, eases: seq<Vec3>)
    requires Valid(m) && hit.index < |m.objects| && |eases| == |m.objects|
    requires m.objects[hit.index].isReturning
    requires m.objects[hit.index].returnProgress + dt / ReturnDuration < 1.0
    ensures var r := Update(OnMouseDown(m, true, 0, Some(hit)), None, dt, eases);
            && r.isPinching && r.selected == Some(hit.index)
            && Highlighted(r.objects[hit.index])
            && r.objects[hit.index].isReturning
            && r.objects[hit.index].scale == eases[hit.index]
  {
    var d := OnMouseDown(m, true, 0, Some(hit));
    assert d.objects[hit.index].isReturning;
    assert d.objects[hit.index].returnProgress == m.objects[hit.index].returnProgress;
  }

  /** A complete mouse gesture: shift-press on an object, then release.
      The manager is idle again and the object, unhighlighted, is on its
      way back to its initial scale. */
  lemma MouseGestureReleasesObject(m: Manager, hit: Hit)
    requires Valid(m) && !m.isPinching && hit.index < |m.objects|
    ensures var r := OnMouseUp(OnMouseDown(m, true, 0, Some(hit)));
            && !r.isPinching && r.selected.None?
            && r.objects[hit.index].isReturning
            && r.objects[hit.index].returnProgress == 0.0
            && !Highlighted(r.objects[hit.index])
            && (forall j :: 0 <= j < |m.objects| && j != hit.index ==> r.objects[j] == m.objects[j])
  {
    var d := OnMouseDown(m, true, 0, Some(hit));
    assert d.selected == Some(hit.index);
  }
}

=== FILE: pinchable_object.dfy ===
/** `PinchableObject`: a mesh whose scale a pinch stretches axis by axis
    and which springs back to the scale it was created with. */
module PinchableObject {
  import opened Vector

  /** Seconds a return takes. */
  const ReturnDuration: real := 1.0

  /** Emissive colour and intensity while pinched, and while not. */
  const PinchedEmissive: nat := 0x553311
  const PinchedIntensity: real := 0.5
  const IdleEmissive: nat := 0x000000
  const IdleIntensity: real := 0.0

  datatype Pinchable = Pinchable(
    scale: Vec3,
    initialScale: Vec3,
    isReturning: bool,
    returnProgress: real,
    emissive: nat,
    emissiveIntensity: real)

  predicate Highlighted(o: Pinchable) {
    o.emissive == PinchedEmissive
  }

  /** A progress of 1 or more always ends a return, so a returning object
      is part-way. */
  predicate Wf(o: Pinchable) {
    o.isReturning ==> o.returnProgress < 1.0
  }

  /** A new object: a fresh mesh has unit scale, which becomes the scale it
      returns to. */
  function Create(emissive: nat, emissiveIntensity: real): (o: Pinchable)
    ensures o.scale == o.initialScale == Vec3(1.0, 1.0, 1.0)
    ensures !o.isReturning && o.returnProgress == 0.0 && Wf(o)
  {
    Pinchable(Vec3(1.0, 1.0, 1.0), Vec3(1.0, 1.0, 1.0), false, 0.0, emissive, emissiveIntensity)
  }

  /** One axis of `extend`: stretched by `factor` if the pinch moved along
      it at all, else back to its initial size. */
  function AxisScale(initial: real, component: real, factor: real): real {
    initial * (if component != 0.0 then factor else 1.0)
  }

  /** `extend(direction, factor)`: the scale is rebuilt from the initial
      scale, never from the current one, and nothing else changes. A factor
      of at least 1 never makes a non-negative axis smaller than it started. */
  function Extend(o: Pinchable, direction: Vec3, factor: real): (r: Pinchable)
    ensures r == o.(scale := r.scale)
    ensures factor >= 1.0 && o.initialScale.x >= 0.0 ==> r.scale.x >= o.initialScale.x
    ensures factor >= 1.0 && o.initialScale.y >= 0.0 ==> r.scale.y >= o.initialScale.y
    ensures factor >= 1.0 && o.initialScale.z >= 0.0 ==> r.scale.z >= o.initialScale.z
  {
    GrowNonNegative(o.initialScale.x, factor);
    GrowNonNegative(o.initialScale.y, factor);
    GrowNonNegative(o.initialScale.z, factor);
    o.(scale := Vec3(AxisScale(o.initialScale.x, direction.x, factor),
                     AxisScale(o.initialScale.y, direction.y, factor),
                     AxisScale(o.initialScale.z, direction.z, factor)))
  }

  lemma GrowNonNegative(a: real, f: real)
    ensures a >= 0.0 && f >= 1.0 ==> a * f >= a
  {
    if a >= 0.0 && f >= 1.0 {
      assert a * f - a == a * (f - 1.0);
      MulNonNeg(a, f - 1.0);
    }
  }

  /** Each axis of the stretched scale: the initial size times `factor`
      exactly on the axes the direction moves along. */
  lemma ExtendPerAxis(o: Pinchable, direction: Vec3, factor: real)
    ensures var s := Extend(o, direction, factor).scale;
            && (direction.x != 0.0 ==> s.x == o.initialScale.x * factor)
            && (direction.x == 0.0 ==> s.x == o.initialScale.x)
            && (direction.y != 0.0 ==> s.y == o.initialScale.y * factor)
            && (direction.y == 0.0 ==> s.y == o.initialScale.y)
            && (direction.z != 0.0 ==> s.z == o.initialScale.z * factor)
            && (direction.z == 0.0 ==> s.z == o.initialScale.z)
  {
  }

  /** Stretching twice with the same pinch is stretching once; and objects
      that agree on their initial scale stretch to the same scale,
      whatever their current scales. */
  lemma ExtendIgnoresCurrentScale(o: Pinchable, p: Pinchable, direction: Vec3, factor: real)
    requires o.initialScale == p.initialScale
    ensures Extend(o, direction, factor).scale == Extend(p, direction, factor).scale
    ensures Extend(Extend(o, direction, factor), direction, factor) == Extend(o, direction, factor)
  {
  }

  /** A pinch that has not moved restores the initial scale, whatever the
      factor. */
  lemma ExtendZeroRestores(o: Pinchable, factor: real)
    ensures Extend(o, Zero, factor).scale == o.initialScale
  {
  }

  /** `extend` looks only at which axes the direction moves along, so the
      direction before or after normalisation (any non-zero multiple) gives
      the same scale. */
  lemma ExtendDirectionScaleFree(o: Pinchable, direction: Vec3, k: real, factor: real)
    requires k != 0.0
    ensures Extend(o, Scale(k, direction), factor) == Extend(o, direction, factor)
  {
    NonZeroProduct(direction.x, k);
    NonZeroProduct(direction.y, k);
    NonZeroProduct(direction.z, k);
  }

  lemma NonZeroProduct(a: real, k: real)
    requires k != 0.0
    ensures a * k != 0.0 <==> a != 0.0
  {
    if a != 0.0 {
      assert a * k / k == a;
    }
  }

  /** `startElasticReturn`. */
  function StartElasticReturn(o: Pinchable): (r: Pinchable)
    ensures r.isReturning && r.returnProgress == 0.0 && Wf(r)
    ensures r.scale == o.scale && r.initialScale == o.initialScale
    ensures Highlighted(r) == Highlighted(o)
  {
    o.(isReturning := true, returnProgress := 0.0)
  }

  /** `updateElasticReturn(deltaTime)`, with `eased` the scale the easing
      curve produces this frame (left unspecified). Idle objects are left
      alone and report `false`; a returning object advances its progress by
      `dt / ReturnDuration`; reaching 1 snaps it to its initial scale, ends
      the return and reports `true`; otherwise it takes the eased scale and
      reports `false`. */
  function UpdateElasticReturn(o: Pinchable, dt: real, eased: Vec3): (r: (Pinchable, bool))
    ensures !o.isReturning ==> r == (o, false)
    ensures o.isReturning ==> r.0.returnProgress == o.returnProgress + dt / ReturnDuration
    ensures o.isReturning && r.0.returnProgress >= 1.0 ==>
              r.1 && !r.0.isReturning && r.0.scale == o.initialScale
    ensures o.isReturning && r.0.returnProgress < 1.0 ==>
              !r.1 && r.0.isReturning && r.0.scale == eased
    ensures r.0.initialScale == o.initialScale && r.0.emissive == o.emissive
    ensures Wf(r.0)
  {
    if !o.isReturning then (o, false)
    else
      var progress := o.returnProgress + dt / ReturnDuration;
      if progress >= 1.0 then
        (o.(returnProgress := progress, scale := o.initialScale, isReturning := false), true)
      else
        (o.(returnProgress := progress, scale := eased), false)
  }

  /** The call after the one that reports `true` reports `false` and
      changes nothing. */
  lemma FinishedReturnIsIdle(o: Pinchable, dt: real, eased: Vec3, dt': real, eased': Vec3)
    requires UpdateElasticReturn(o, dt, eased).1
    ensures var p := UpdateElasticReturn(o, dt, eased).0;
            UpdateElasticReturn(p, dt', eased') == (p, false)
  {
  }

  /** `updateAppearance(isPinched)`: only the emissive colour and intensity
      change, and the object is highlighted exactly when pinched. */
  function UpdateAppearance(o: Pinchable, isPinched: bool): (r: Pinchable)
    ensures Highlighted(r) <==> isPinched
    ensures r.scale == o.scale && r.initialScale == o.initialScale
    ensures r.isReturning == o.isReturning && r.returnProgress == o.returnProgress
  {
    if isPinched then o.(emissive := PinchedEmissive, emissiveIntensity := PinchedIntensity)
    else o.(emissive := IdleEmissive, emissiveIntensity := IdleIntensity)
  }

  /** One frame of a return: the time since the last frame and the scale
      the easing curve produces for it. */
  datatype Frame = Frame(dt: real, eased: Vec3)

  /** The time the frames span. */
  function TotalTime(frames: seq<Frame>): real
    decreases |frames|
  {
    if |frames| == 0 then 0.0 else frames[0].dt + TotalTime(frames[1..])
  }

  /** The frames of a return, each with its own length and eased scale. */
  function ReturnFrames(o: Pinchable, frames: seq<Frame>): (r: Pinchable)
    ensures r.initialScale == o.initialScale
    ensures Wf(o) ==> Wf(r)
    decreases |frames|
  {
    if |frames| == 0 then o
    else ReturnFrames(UpdateElasticReturn(o, frames[0].dt, frames[0].eased).0, frames[1..])
  }

  /** A return started by `startElasticReturn` is over, with the object back
      at its initial scale, once the frame times add up to what is left of
      `ReturnDuration`, however they vary and whatever the easing curve
      produced on the way. */
  lemma {:induction false} ReturnCompletes(o: Pinchable, frames: seq<Frame>)
    requires Wf(o)
    requires o.isReturning ==> o.returnProgress + TotalTime(frames) / ReturnDuration >= 1.0
    requires !o.isReturning ==> o.scale == o.initialScale
    ensures !ReturnFrames(o, frames).isReturning
    ensures ReturnFrames(o, frames).scale == o.initialScale
    decreases |frames|
  {
    if |frames| > 0 {
      var p := UpdateElasticReturn(o, frames[0].dt, frames[0].eased).0;
      ReturnCompletes(p, frames[1..]);
    }
  }
}

=== FILE: vector.dfy ===
/** Three-component vectors and 3x3 matrices over `real`, standing in for the
    rendering engine's `Vector3` and the rotation part of `Matrix4`.
    Floating-point rounding is not modelled. */
module Vector {

  datatype Vec3 = Vec3(x: real, y: real, z: real)

  const Zero: Vec3 := Vec3(0.0, 0.0, 0.0)

  function Add(a: Vec3, b: Vec3): Vec3 {
    Vec3(a.x + b.x, a.y + b.y, a.z + b.z)
  }

  function Sub(a: Vec3, b: Vec3): Vec3 {
    Vec3(a.x - b.x, a.y - b.y, a.z - b.z)
  }

  /** `v.multiplyScalar(k)`. */
  function Scale(k: real, v: Vec3): Vec3 {
    Vec3(v.x * k, v.y * k, v.z * k)
  }

  function Dot(a: Vec3, b: Vec3): real {
    a.x * b.x + a.y * b.y + a.z * b.z
  }

  /** Squared Euclidean length; used instead of `length()` so no square root is needed. */
  function NormSq(v: Vec3): (r: real)
    ensures r >= 0.0
  {
    SquareNonNegative(v.x);
    SquareNonNegative(v.y);
    SquareNonNegative(v.z);
    Dot(v, v)
  }

  /** Squared Euclidean distance, in place of `distanceTo`. */
  function DistSq(a: Vec3, b: Vec3): (r: real)
    ensures r >= 0.0
  {
    NormSq(Sub(a, b))
  }

  function Sq(x: real): real {
    x * x
  }

  lemma SquareNonNegative(a: real)
    ensures a * a >= 0.0
  {
  }

  lemma MulNonNeg(a: real, b: real)
    requires a >= 0.0 && b >= 0.0
    ensures a * b >= 0.0
  {
  }

  lemma MulPositive(a: real, b: real)
    requires a > 0.0 && b > 0.0
    ensures a * b > 0.0
  {
  }

  lemma MulNegPos(p: real, q: real)
    requires p < 0.0 && q > 0.0
    ensures p * q < 0.0
  {
  }

  predicate IsUnit(n: Vec3) {
    NormSq(n) == 1.0
  }

  /** `d` is the Euclidean distance between `a` and `b`: the value `distanceTo` returns. */
  predicate IsDistance(a: Vec3, b: Vec3, d: real) {
    d >= 0.0 && Sq(d) == DistSq(a, b)
  }

  /** The engine's `Vector3.reflect(normal)`: subtract twice the component along `normal`.
      It is a reflection only when `normal` has unit length. */
  function Reflect(v: Vec3, normal: Vec3): Vec3 {
    Sub(v, Scale(2.0 * Dot(v, normal), normal))
  }

  /** A 3x3 matrix given by its rows; `Apply` is matrix-vector product. */
  datatype Mat3 = Mat3(row0: Vec3, row1: Vec3, row2: Vec3)

  const Identity: Mat3 := Mat3(Vec3(1.0, 0.0, 0.0), Vec3(0.0, 1.0, 0.0), Vec3(0.0, 0.0, 1.0))

  function Apply(m: Mat3, v: Vec3): Vec3 {
    Vec3(Dot(m.row0, v), Dot(m.row1, v), Dot(m.row2, v))
  }

  /** The third column of `m`: where `m` sends the local z axis. */
  function ZColumn(m: Mat3): Vec3 {
    Vec3(m.row0.z, m.row1.z, m.row2.z)
  }

  lemma SquareStrictlyIncreasing(a: real, b: real)
    requires 0.0 <= a < b
    ensures Sq(a) < Sq(b)
  {
    var d := b - a;
    assert Sq(b) == Sq(a) + 2.0 * a * d + d * d;
    assert a * d >= 0.0;
    assert d * d > 0.0;
  }

  /** For non-negative values, comparing squares is the same as comparing the values. */
  lemma SquareMonotone(a: real, b: real)
    requires a >= 0.0 && b >= 0.0
    ensures a < b <==> Sq(a) < Sq(b)
  {
    if a < b {
      SquareStrictlyIncreasing(a, b);
    } else if b < a {
      SquareStrictlyIncreasing(b, a);
    }
  }

  lemma SquarePositive(d: real)
    requires d != 0.0
    ensures Sq(d) > 0.0
  {
    if d > 0.0 {
      SquareStrictlyIncreasing(0.0, d);
    } else {
      SquareStrictlyIncreasing(0.0, -d);
      assert Sq(-d) == Sq(d);
    }
  }

  lemma ScaleNormSq(k: real, v: Vec3)
    ensures NormSq(Scale(k, v)) == k * k * NormSq(v)
  {
  }

  /** Reflection about a unit normal keeps the length and flips the normal component. */
  lemma ReflectUnit(v: Vec3, n: Vec3)
    requires IsUnit(n)
    ensures NormSq(Reflect(v, n)) == NormSq(v)
    ensures Dot(Reflect(v, n), n) == -Dot(v, n)
  {
    var d := Dot(v, n);
    var r := Reflect(v, n);
    assert Dot(r, n) == d - 2.0 * d * NormSq(n);
    calc {
      NormSq(r);
      NormSq(v) - 4.0 * d * d + 4.0 * d * d * NormSq(n);
      NormSq(v);
    }
  }

  /** Taking `m` times a unit vector off `v` lowers its component along it by
      `m`. */
  lemma SubAlongUnit(v: Vec3, n: Vec3, m: real)
    requires IsUnit(n)
    ensures Dot(Sub(v, Scale(m, n)), n) == Dot(v, n) - m
    ensures NormSq(Sub(v, Scale(m, n))) == NormSq(v) - 2.0 * m * Dot(v, n) + m * m
  {
    var w := Sub(v, Scale(m, n));
    assert Dot(w, n) == Dot(v, n) - m * NormSq(n);
    assert w.x * w.x == v.x * v.x - 2.0 * m * (v.x * n.x) + m * m * (n.x * n.x);
    assert w.y * w.y == v.y * v.y - 2.0 * m * (v.y * n.y) + m * m * (n.y * n.y);
    assert w.z * w.z == v.z * v.z - 2.0 * m * (v.z * n.z) + m * m * (n.z * n.z);
    assert NormSq(w) == NormSq(v) - 2.0 * m * Dot(v, n) + m * m * NormSq(n);
  }

  /** Reflecting about `k` times `n` subtracts `2 k^2 (v . n)` times `n`:
      the same as reflecting about `n` only when `k * k == 1`. */
  lemma ReflectScaled(v: Vec3, n: Vec3, k: real)
    ensures Reflect(v, Scale(k, n)) == Sub(v, Scale(2.0 * k * k * Dot(v, n), n))
  {
    var d := Dot(v, n);
    assert Dot(v, Scale(k, n)) == k * d;
    var c := 2.0 * (k * d);
    assert (n.x * k) * c == n.x * (2.0 * k * k * d);
    assert (n.y * k) * c == n.y * (2.0 * k * k * d);
    assert (n.z * k) * c == n.z * (2.0 * k * k * d);
  }
}

=== FILE: wrappers.dfy ===
/** The optional value used wherever the source has a nullable reference
    (`T | null`, `undefined`, a missing hand joint). */
module Wrappers {

  datatype Option<+T> = None | Some(value: T)
}
